=== FILE: README.md ===
# Volleyball standings scraper — a Dafny model of its decision logic

The scraper loads a volleyball federation's results page in a headless browser. It
picks the league standings table out of all the tables on the page and cleans that
table into the columns `Class.`, `Equipe`, `Pts.`, `Jou.`, `Gagn.`, `Perd.` and
`Pourcentage`. It then writes the table to an Excel file named after the team. It can
do this for every team in a `teams.csv` configuration file, for one configured team, or
for a URL given on the command line.

This project models the pure decision logic of `volley_scraper_final.py`, and proves
properties of it:

- **Signatures** (`signatures.dfy`): the eight regular expressions the classifier looks
  for, written as string predicates, and the score, which counts the patterns that
  match.
- **Classifier** (`classifier.dfy`): `find_volleyball_table`. A candidate table
  qualifies with more than 2 rows, at least 3 columns and a score of at least 2. The
  first qualifying table in document order wins. A table that failed to parse is
  skipped.
- **Normaliser** and **Percentage** (`normaliser.dfy`, `percentage.dfy`):
  `clean_and_save_data` without the Excel output. This covers dropping all-NaN rows
  and columns, the 19-column threshold, the mapping of column labels 0–5 to names,
  removing repeated header rows, integer coercion and the French-formatted win
  percentage. `Normalise` is `Clean` (step 1) followed by `Reshape` (the rest), so
  the properties of the whole function are stated on those two parts.
- **Config** (`config.dfy`): the row filter of `load_teams_config`, over rows that are
  already split into fields.
- **Filenames** (`filenames.dfy`): the output file name derived from a team name.
- **Cli** (`cli.dfy`): one scrape as the classifier followed by the normaliser; the
  batch tally; the single-argument dispatch; and the choice the main block makes on
  the argument count.
- Support modules: `Wrappers` (Option/Result), `Seqs` (filtering, index lookup),
  `Text` (character classes, lower-casing, stripping, decimal integers), `Grids`
  (tables and cleaned grids).

Modelling conventions:

- A pandas cell that is NaN is `None`; any other cell is its text.
- A parsed table is rectangular. Its columns are labelled 0, 1, 2, …, which is how
  `read_html` labels a table without a header row. After cleaning, each surviving
  column keeps its original label. That is why the mapping is by label, not by
  position.
- The score is computed from the text of the table's `to_string()` rendering. That text
  is an input.
- The percentage is kept exactly, as an integer number of tenths of a percent.
- Two exceptions the source raises inside the normaliser become `Error` values:
  - a `KeyError` for a missing `Class.` column;
  - an `OverflowError` from `int(inf)` when wins plus losses is 0 but wins is not.
  The scrape function turns either one into a failed target, as the `except` at
  volley_scraper_final.py:251-253 does. A third, the cast of an infinite numeric cell
  to an integer, is not modelled (see "Left out").

Behaviour worth knowing:

- Columns are mapped by their original label. So a table whose column 0 was all NaN
  fails with a missing `Class.` column, even when a later column holds the ranks.
- The signature list holds `Pts.` with an upper-case `P`. It is matched against
  lower-cased text, so it never contributes to the score (`PtsNeverMatchesLowered`).
  The highest possible score is therefore 7.
- The header-row filter is a regular expression. `Pts.` and `Class.` there mean the word
  followed by any character other than a newline, case-insensitively. So a rank cell
  `Classement` is dropped as a header, and a bare `Pts` is kept.
- A configured team name may be empty. Duplicate names are all processed in the
  batch. For a single argument, the last duplicate's URL is used.
- The seven-column output, read back as a table, has fewer than 19 columns. It goes
  through the unmapped path (`NarrowTableDegraded`), so it comes back cleaned and
  unmapped.

## Model

| member | source | states |
|---|---|---|
| Signatures.Matches | volley_scraper_final.py:105-116 | `re.search` of each signature pattern succeeds exactly when its predicate holds somewhere in the text: two digits, `/` or `-`, two digits; a literal word; a digit, whitespace, `-`, whitespace, a digit; `Pts` followed by any non-newline character |
| Signatures.Score | volley_scraper_final.py:102-116 | the score counts each pattern at most once, never exceeds 7, and the `Pts.` pattern never matches the lower-cased blob |
| Signatures.PtsNeverMatchesLowered | volley_scraper_final.py:102-112 | for every blob, the upper-case `Pts.` signature finds no match in the lower-cased text |
| Signatures.CountAtLeastTwo | volley_scraper_final.py:116-122 | a pattern count of at least 2 holds exactly when two different patterns both match |
| Signatures.CountAtLeastOne | volley_scraper_final.py:116 | a positive pattern count holds exactly when some pattern matches |
| Classifier.SelectFrom | volley_scraper_final.py:93-129 | scanning from a position returns the first qualifying candidate at or after it; none between qualifies; `None` exactly when no later candidate qualifies |
| Classifier.Select | volley_scraper_final.py:93-129 | the chosen index qualifies, no earlier candidate qualifies, and there is no choice exactly when no candidate qualifies |
| Classifier.FindVolleyballTable | volley_scraper_final.py:85-129 | the returned table is the first qualifying one in document order; `None` exactly when none qualifies |
| Classifier.FirstMatchWins | volley_scraper_final.py:119-124 | a qualifying table earlier in document order wins over any later table, whatever its score; otherwise the choice is the first one in the later part |
| Classifier.UnparseableSkipped | volley_scraper_final.py:94-127 | a table whose parsing raised never changes which of the other tables is chosen |
| Classifier.QualifiesIffTwoSignatures | volley_scraper_final.py:120-122 | a table qualifies exactly when it parsed, has more than 2 rows and at least 3 columns, and two distinct signature patterns occur in its lower-cased text |
| Normaliser.DropRowsKeepsColumns | volley_scraper_final.py:135 | dropping all-NaN rows first does not change which columns hold a value |
| Normaliser.Clean | volley_scraper_final.py:135 | the cleaned grid keeps the non-empty rows in their original order and exactly the columns that hold a value, in their original order and with their original labels |
| Normaliser.CleanLeavesNoEmptyLine | volley_scraper_final.py:135 | after cleaning, every row and every column holds at least one value |
| Normaliser.CleanIdempotent | volley_scraper_final.py:135 | cleaning a cleaned grid again removes nothing |
| Normaliser.DataRows | volley_scraper_final.py:160-161 | a row survives exactly when its `Class.` cell is present and is not header text |
| Normaliser.DataRowsAppend | volley_scraper_final.py:160-161 | the filter keeps the relative order of rows: the data rows of two blocks are those of the first block followed by those of the second |
| Normaliser.DataRowsOne | volley_scraper_final.py:160-161 | a single row is kept, once, exactly when its `Class.` cell is present and not header text |
| Normaliser.Coerce | volley_scraper_final.py:164-167 | a cell becomes the integer its text spells, and 0 when it is NaN or not integer text |
| Normaliser.CoerceRoundTrip | volley_scraper_final.py:167 | coercing the decimal text of any integer gives that integer back |
| Normaliser.Header | volley_scraper_final.py:147-186 | the header lists the names of the surviving labels 0–5 in the mapping's order, then `Pourcentage` as the last column when wins and losses both survived |
| Normaliser.HeaderNamesIff | volley_scraper_final.py:147-186 | a field name is in the header exactly when its label survived cleaning; `Pourcentage` exactly when both `Gagn.` and `Perd.` did |
| Normaliser.OutputRow | volley_scraper_final.py:150-186 | one output row has a cell per header name: the converted value of each surviving field column in the mapping's order, then the row's formatted percentage when both wins and losses survived; `OutputRowByName` and `OutputRowIsStanding` state it by field name |
| Normaliser.OutputRowByName | volley_scraper_final.py:147-186 | the cell under a field name is the value of the original column the mapping gives that name; the cell under `Pourcentage` is the formatted percentage of the row's wins and losses |
| Normaliser.Reshape | volley_scraper_final.py:138-186 | fewer than 19 surviving columns gives exactly the cleaned grid. Otherwise it fails without column 0, or on an infinite percentage. Otherwise it gives the mapped header and one output row per data row, in order |
| Normaliser.Normalise | volley_scraper_final.py:132-190 | a failure only ever happens in the standings path, with at least 19 surviving columns; an unmapped result is exactly the cleaned table. Its full behaviour is `Clean` then `Reshape`, stated by the rows above and by `StandingsLayout` and `StandingsLayoutFailure` |
| Normaliser.FullHeader | volley_scraper_final.py:140-157 | when labels 0–5 all survive, the columns are exactly `Class., Equipe, Pts., Jou., Gagn., Perd., Pourcentage` in that order |
| Normaliser.PresentAll | volley_scraper_final.py:140-156 | when labels 0–5 all survive, all six are kept, in the order of the mapping |
| Normaliser.OutputRowField | volley_scraper_final.py:147-167 | with all six fields, output cell k below 6 is the value of the original column labelled k |
| Normaliser.OutputRowPercentage | volley_scraper_final.py:170-186 | with all six fields, the seventh output cell is the formatted rounded percentage of the row's wins and losses |
| Normaliser.OutputRowIsStanding | volley_scraper_final.py:140-186 | with all six fields, an output row is the standings record of its data row |
| Normaliser.ReshapeLayout | volley_scraper_final.py:138-186 | on a cleaned grid with at least 19 columns and labels 0–5 present, a successful result has the seven standings columns and one standings record per data row, in the original order |
| Normaliser.StandingsLayout | volley_scraper_final.py:138-186 | with at least 19 columns and labels 0–5 present, a successful result has the seven standings columns and one record per data row, in the original order |
| Normaliser.ReshapeLayoutFailure | volley_scraper_final.py:160-186 | on a cleaned grid in the standings layout, reshaping fails exactly when some data row has wins plus losses equal to 0 with non-zero wins |
| Normaliser.StandingsLayoutFailure | volley_scraper_final.py:160-186 | in the standings layout, normalising fails exactly when some data row has wins plus losses equal to 0 with non-zero wins |
| Normaliser.NarrowTableDegraded | volley_scraper_final.py:135-138 | a table narrower than 19 columns is returned as cleaned, with no mapping and no percentage |
| Normaliser.HeaderTextExamples | volley_scraper_final.py:161 | `Class.`, `Pts.`, `Classement` and `PTS:` count as header text; `Pts` and `12` do not |
| Normaliser.IsHeaderText | volley_scraper_final.py:161 | a cell is header text exactly when, after lower-casing, `pts` or `class` occurs in it followed by a character other than a newline; `HeaderTextExamples` shows which texts match |
| Percentage.RoundedTenths | volley_scraper_final.py:172-176 | with games played, the result is the nearest integer to 1000·wins/(wins+losses); with no games and no wins it is 0; with zero games but non-zero wins there is no value |
| Percentage.PercentageInRange | volley_scraper_final.py:170-176 | for non-negative wins and losses with at least one game, the percentage lies in [0, 100] |
| Percentage.FormatTenths | volley_scraper_final.py:180-184 | the text ends in `" %"` and has no `.`; it has a comma exactly when the tenths digit is not 0; it starts with `-` exactly for a negative value; the whole-number part after the sign has no leading zero |
| Percentage.WinPercentage | volley_scraper_final.py:172-186 | a percentage text exists exactly when the rounded percentage does, that is unless a non-zero number of wins is divided by zero games; `FormatRoundTrip` states that the text reads back to that value |
| Percentage.FormatRoundTrip | volley_scraper_final.py:180-186 | the formatted percentage can be read back to the rounded value, so no information is lost |
| Percentage.FormatUnique | volley_scraper_final.py:180-184 | conversely, any text that reads back to the value, carries its sign, has a comma only for a non-zero tenths digit and no leading zero is exactly the formatted text, so the text is fully determined |
| Text.CanonicalIsRendering | volley_scraper_final.py:181-184 | a run of digits without a superfluous leading zero is the rendering `str` and `int` give of its value |
| Percentage.ExampleTwoOfThree | volley_scraper_final.py:170-186 | 2 wins and 1 loss give `66,7 %` |
| Percentage.ExampleEven | volley_scraper_final.py:170-186 | 1 win and 1 loss give `50 %`, without a decimal part |
| Percentage.ExampleNoGames | volley_scraper_final.py:170-186 | no games at all give `0 %`, the NaN of 0/0 being filled with 0 |
| Percentage.ExampleUnbeaten | volley_scraper_final.py:170-186 | 1 win and no loss give `100 %` |
| Percentage.ExampleInfinite | volley_scraper_final.py:170-186 | 3 wins and −3 losses divide a non-zero number by zero and give no value |
| Config.CommentIffStrippedHash | volley_scraper_final.py:40 | the comment test is exactly `row[0].strip().startswith('#')` |
| Config.LoadTeams | volley_scraper_final.py:38-48 | each row gives at most one team; `LoadTeamsIsFilter` states exactly which rows give one and what it is |
| Config.LoadTeamsAppend | volley_scraper_final.py:38-46 | rows are processed in order: loading a concatenation concatenates the team lists |
| Config.LoadTeamsIsFilter | volley_scraper_final.py:38-48 | the loaded teams are, in input order, the stripped first two fields of exactly the rows that are non-empty, not comments and have at least 2 fields |
| Config.LoadTeamsStripped | volley_scraper_final.py:43-46 | every loaded name and URL is stripped, and no name starts with `#` |
| Config.EachRowCountedOnce | volley_scraper_final.py:38-48 | every row that is not skipped yields either a team or a warning, never both |
| Config.RowCases | volley_scraper_final.py:39-48 | the three branches of the loop body: skipped silently, one stripped team with extra fields ignored, or a warning for its line |
| Config.LoadTeamsConfig | volley_scraper_final.py:32-58 | the loop returns the teams and the warned line numbers; a missing file gives no teams |
| Config.PaddedRowExample | volley_scraper_final.py:43-46 | a padded row with a third field yields its two stripped fields |
| Filenames.Stem | volley_scraper_final.py:289-290 | the stem holds only letters, digits, `-` and `_`, and is no longer than the name |
| Filenames.FileName | volley_scraper_final.py:289-291 | the file name ends in `.xlsx` and has no other dot and no `/` |
| Filenames.SafeNameUnchanged | volley_scraper_final.py:289-290 | a name made only of letters, digits, `-` and `_` is its own stem |
| Filenames.StemIdempotent | volley_scraper_final.py:289-290 | sanitising twice is sanitising once |
| Filenames.TailIgnored | volley_scraper_final.py:289-290 | trailing spaces and dropped characters after the last kept character leave no trace, so no trailing underscore comes from a trailing space |
| Filenames.DroppedAnywhere | volley_scraper_final.py:289 | a character outside letters, digits, space, `-` and `_` is dropped wherever it occurs |
| Filenames.FileNameStem | volley_scraper_final.py:291 | the file name is the stem followed by `.xlsx` |
| Filenames.ExampleInnerSpace | volley_scraper_final.py:290 | an inner space becomes an underscore |
| Filenames.InnerSpaceUnderscored | volley_scraper_final.py:289-290 | a space followed later by a letter, digit, `-` or `_` yields the same stem as an underscore in its place, so each inner space becomes one underscore |
| Cli.Scrape | volley_scraper_final.py:193-253 | a driver that does not start or a page that fails to load, or a page with no qualifying table, fails the target; a success is the normalised first qualifying table |
| Cli.LaterTablesIgnored | volley_scraper_final.py:229-246 | once a qualifying table has appeared, the tables after it never change the outcome of a scrape |
| Cli.NarrowSelectionSucceeds | volley_scraper_final.py:229-246 | a selected table narrower than 19 columns always scrapes successfully, to its cleaned grid |
| Cli.ProcessMultipleTeams | volley_scraper_final.py:264-318 | every team is tried in order; successes plus failures equal the team count; output files follow the configuration order; there is one pause between consecutive teams and none after the last |
| Cli.OneFailureCountsOnce | volley_scraper_final.py:294-301 | making one target fail lowers the success tally by at most that one target |
| Cli.TeamDict | volley_scraper_final.py:331 | the dictionary has no more entries than configured teams and holds every configured name; `TeamDictLastWins` states which URL each name maps to |
| Cli.TeamDictLastWins | volley_scraper_final.py:331 | the name-to-URL dictionary holds exactly the configured names, each mapped to the URL of its last occurrence |
| Cli.Dispatch | volley_scraper_final.py:321-375 | a configured name dispatches to that team with the last duplicate's URL and its sanitised file name. Otherwise an argument starting with `http` is a direct URL. Anything else is invalid |
| Cli.LastDuplicateWins | volley_scraper_final.py:331-336 | among duplicate names the last configured URL is used, whatever came before |
| Cli.Run | volley_scraper_final.py:378-400 | no argument processes all teams; more than one is a usage error; a single argument dispatches to a team only when some configuration row names it |
| Cli.ExampleNameLooksLikeUrl | volley_scraper_final.py:333-351 | a configured name that starts with `http` is scraped as that team, not as a URL |
| Cli.ExampleDirectUrl | volley_scraper_final.py:351-361 | an unknown argument starting with `http` is scraped as a direct URL |
| Cli.ExampleInvalid | volley_scraper_final.py:367-375 | any other unknown argument is rejected |

## Left out

- The Selenium driver, page loading, the waits and sleeps, and the temporary profile
  directory and its removal (volley_scraper_final.py:61-82, 204-227, 255-261). These
  are browser and file-system I/O. A page is an input: either nothing was rendered
  (the driver did not start, or loading raised), or the page's tables.
- `pd.read_html` parsing of each table's HTML (volley_scraper_final.py:95-98). This is a
  foreign library. A table is given as a rectangular grid of optional text cells
  labelled 0, 1, 2, …. Header rows that `read_html` would turn into string column
  labels, and its numeric type inference, are not modelled.
- The exact `to_string()` rendering of a table (volley_scraper_final.py:102). The text
  blob is an input of each candidate.
- `csv.reader` tokenisation and reading the configuration file
  (volley_scraper_final.py:36-37, 53-58). The rows arrive already split into fields,
  and a missing or unreadable file is `None`.
- Writing the Excel file (volley_scraper_final.py:189) and all console output.
- The random file name for a direct URL (volley_scraper_final.py:355-359). It is
  nondeterministic.
- The default file name `ffvb_results.xlsx` (volley_scraper_final.py:234). It is never
  used on the command-line paths, which always pass a name ending in `.xlsx`.
- Percentage.RoundedTenths: which way an exact half-tenth rounds is left open. The
  source rounds a float with `round(1)`, so the direction depends on binary floating
  point.
- Normaliser.Coerce: only integer text (an optional sign and digits) is read. Decimal
  text such as `12.0`, which `to_numeric` accepts and `astype(int)` truncates, and text
  with surrounding whitespace both coerce to 0 here. Both are float-parsing details of
  pandas.
- Normaliser.Coerce: text that `to_numeric` reads as an infinity (`inf`, `-inf`,
  `Infinity`, a literal too large for a float) makes `astype(int)` raise at
  volley_scraper_final.py:167, which fails the target. Here it coerces to 0 and
  `Reshape` succeeds. The spellings pandas accepts are a float-parsing detail of the
  library.
- Normaliser.Coerce: `astype(int)` gives a 64-bit integer. Values outside its range do
  not keep their value in the source. Here integers are unbounded.
- Text.IsDigit: the regex class `\d` is restricted to ASCII digits. Python also matches
  other Unicode decimal digits, which affects the date and score signatures.
- Normaliser.IsHeaderText: the `case=False` match at volley_scraper_final.py:161 folds
  case with Unicode rules (for example `ſ` and the Kelvin sign). Here only ASCII
  letters are lower-cased.
- Filenames.Stem: `isalnum` is restricted to ASCII letters and digits. Python's
  Unicode letters such as `é` are kept by the source but dropped here.
- Text.Lower: lower-casing is ASCII-only. Non-ASCII characters of the blob are left
  as they are.
- `verify_setup.py`, the installation check script, is not part of this model. It only
  probes imports and launches a browser.

=== FILE: classifier.dfy ===
/** The standings-table classifier: the first table on the page that is large enough and
    shows at least two volleyball signatures (volley_scraper_final.py:85-129). */
module Classifier {
  import opened Wrappers
  import opened Grids
  import opened Signatures
  import opened Text

  /** One `<table>` element of the page. `Parsed` holds what `read_html` produced and the
      text of its `to_string()` rendering; `Unparseable` is a table whose outer HTML was
      empty or whose parsing raised, which the loop skips. */
  datatype Candidate = Parsed(table: Table, blob: string) | Unparseable

  /** More than 2 rows, at least 3 columns and a score of at least 2. */
  predicate Qualifies(c: Candidate)
  {
    c.Parsed? && |c.table.rows| > 2 && c.table.width >= 3 && Score(c.blob) >= 2
  }

  /** The position of the first qualifying candidate at or after `from`. */
  function SelectFrom(cs: seq<Candidate>, from: nat): (r: Option<nat>)
    requires from <= |cs|
    decreases |cs| - from
    ensures r.Some? ==> from <= r.value < |cs| && Qualifies(cs[r.value])
    ensures r.Some? ==> forall j :: from <= j < r.value ==> !Qualifies(cs[j])
    ensures r.None? <==> forall j :: from <= j < |cs| ==> !Qualifies(cs[j])
  {
    if from == |cs| then None
    else if Qualifies(cs[from]) then Some(from)
    else SelectFrom(cs, from + 1)
  }

  /** The position of the table `find_volleyball_table` returns, in document order. */
  function Select(cs: seq<Candidate>): (r: Option<nat>)
    ensures r.Some? ==> r.value < |cs| && Qualifies(cs[r.value])
    ensures r.Some? ==> forall j :: 0 <= j < r.value ==> !Qualifies(cs[j])
    ensures r.None? <==> forall j :: 0 <= j < |cs| ==> !Qualifies(cs[j])
  {
    SelectFrom(cs, 0)
  }

  /** `find_volleyball_table`: the selected table, or `None` when no table qualifies. */
  function FindVolleyballTable(cs: seq<Candidate>): (r: Option<Table>)
    ensures r.None? <==> forall j :: 0 <= j < |cs| ==> !Qualifies(cs[j])
    ensures r.Some? ==> exists i :: (0 <= i < |cs| && Qualifies(cs[i]) && cs[i].table == r.value
      && forall j :: 0 <= j < i ==> !Qualifies(cs[j]))
  {
    match Select(cs)
    case None => None
    case Some(i) => Some(cs[i].table)
  }

  /** The policy is first match, not best match: a qualifying table earlier in document
      order wins over any later one, whatever the later one's score. */
  lemma {:induction false} FirstMatchWins(a: seq<Candidate>, b: seq<Candidate>)
    ensures Select(a).Some? ==> Select(a + b) == Select(a)
    ensures Select(a).None? ==>
      Select(a + b) == (match Select(b) case None => None case Some(i) => Some(|a| + i))
  {
    var ab := a + b;
    assert forall j :: 0 <= j < |a| ==> ab[j] == a[j];
    assert forall j :: 0 <= j < |b| ==> ab[|a| + j] == b[j];
  }

  /** A table whose parsing failed is passed over: it never shifts the choice among the
      other tables. */
  lemma UnparseableSkipped(a: seq<Candidate>, b: seq<Candidate>)
    ensures Select(a + [Unparseable] + b) ==
      (match Select(a + b) case None => None
       case Some(i) => Some(if i < |a| then i else i + 1))
  {
    var u: seq<Candidate> := [Unparseable];
    assert !Qualifies(u[0]);
    assert Select(u) == None;
    FirstMatchWins(u, b);
    FirstMatchWins(a, u + b);
    FirstMatchWins(a, b);
    assert a + u + b == a + (u + b);
  }

  /** The score threshold in terms of the patterns themselves: a score of at least 2 means
      two different signature patterns occur in the lower-cased text. */
  lemma QualifiesIffTwoSignatures(c: Candidate)
    ensures Qualifies(c) <==>
      && c.Parsed? && |c.table.rows| > 2 && c.table.width >= 3
      && exists i, j :: 0 <= i < j < |Patterns| && Matches(Patterns[i], Lower(c.blob))
                                               && Matches(Patterns[j], Lower(c.blob))
  {
    if c.Parsed? {
      CountAtLeastTwo(Patterns, Lower(c.blob));
    }
  }
}

=== FILE: cli.dfy ===
/** One scraping run per target, the batch over all configured targets, and the choice
    the command line makes between them (volley_scraper_final.py:193-400). The browser,
    the clock and the files are not modelled: what a page renders to is an input. */
module Cli {
  import opened Wrappers
  import opened Seqs
  import opened Text
  import opened Config
  import opened Filenames
  import opened Classifier
  import opened Normaliser

  // ---------------------------------------------------------------------------
  // One target

  /** What the browser produced for a URL: either nothing (the driver could not start,
      or loading the page raised), or the page's `<table>` elements in document
      order. */
  datatype Page = RenderFailed | Rendered(tables: seq<Candidate>)

  /** Why `scrape_ffvb_volleyball_results` returned `None`. */
  datatype ScrapeError = NoPage | NoStandingsTable | NormaliseFailed(error: Error)

  /** `scrape_ffvb_volleyball_results` without the browser: select the standings table,
      then normalise it; an exception while normalising is a failed target. */
  function Scrape(page: Page): (r: Result<Output, ScrapeError>)
    ensures r == Failure(NoPage) <==> page.RenderFailed?
    ensures r == Failure(NoStandingsTable) <==>
      page.Rendered? && forall j :: 0 <= j < |page.tables| ==> !Qualifies(page.tables[j])
    ensures r.Success? ==> exists i :: (0 <= i < |page.tables| && Qualifies(page.tables[i])
      && (forall j :: 0 <= j < i ==> !Qualifies(page.tables[j]))
      && Normalise(page.tables[i].table) == Success(r.value))
    ensures page.Rendered? && Select(page.tables).Some? ==>
      var t := page.tables[Select(page.tables).value].table;
      && (r.Success? <==> Normalise(t).Success?)
      && (forall e :: r == Failure(NormaliseFailed(e)) <==> Normalise(t) == Failure(e))
  {
    match page
    case RenderFailed => Failure(NoPage)
    case Rendered(tables) =>
      match FindVolleyballTable(tables)
      case None => Failure(NoStandingsTable)
      case Some(t) =>
        match Normalise(t)
        case Failure(e) => Failure(NormaliseFailed(e))
        case Success(out) => Success(out)
  }

  /** Once a qualifying table has been seen, the tables after it never change the
      outcome of a scrape. */
  lemma LaterTablesIgnored(a: seq<Candidate>, b: seq<Candidate>)
    requires exists j :: 0 <= j < |a| && Qualifies(a[j])
    ensures Scrape(Rendered(a + b)) == Scrape(Rendered(a))
  {
    FirstMatchWins(a, b);
    var i := Select(a).value;
    assert (a + b)[i] == a[i];
  }

  /** A page whose first qualifying table is narrower than the standings layout always
      scrapes successfully, to that table's cleaned grid. */
  lemma NarrowSelectionSucceeds(tables: seq<Candidate>, i: nat)
    requires i < |tables| && Qualifies(tables[i])
    requires forall j :: 0 <= j < i ==> !Qualifies(tables[j])
    requires tables[i].table.width < StandingsWidth
    ensures Scrape(Rendered(tables)) == Success(Degraded(Clean(tables[i].table)))
  {
    assert Select(tables) == Some(i);
    NarrowTableDegraded(tables[i].table);
  }

  // ---------------------------------------------------------------------------
  // The batch over all configured teams

  /** What one scrape returned. */
  type Outcome = Result<Output, ScrapeError>

  /** How many of the scrapes returned a table. */
  function Successes(results: seq<Outcome>): (n: nat)
    ensures n <= |results|
  {
    if |results| == 0 then 0
    else Successes(results[..|results| - 1]) + (if results[|results| - 1].Success? then 1 else 0)
  }

  /** Counting one more result adds one exactly when it is a success. */
  lemma SuccessesStep(results: seq<Outcome>, i: nat)
    requires i < |results|
    ensures Successes(results[..i + 1]) == Successes(results[..i]) + (if results[i].Success? then 1 else 0)
  {
    assert results[..i + 1][..i] == results[..i];
  }

  /** The tally `process_multiple_teams` reports, the files it asks for in order, and
      how many pauses it makes between teams. */
  datatype Summary = Summary(successes: nat, failures: nat, outputs: seq<string>, pauses: nat)

  /** `process_multiple_teams`: `results[i]` is what `Scrape` returned for the page the
      browser rendered for the i-th configured team. Every team is tried, in order,
      whatever happened to the ones before it. */
  method ProcessMultipleTeams(teams: seq<Team>, results: seq<Outcome>) returns (s: Summary)
    requires |results| == |teams|
    ensures s.successes + s.failures == |teams|
    ensures s.successes == Successes(results)
    ensures |s.outputs| == |teams|
    ensures forall i :: 0 <= i < |teams| ==> s.outputs[i] == FileName(teams[i].name)
    ensures s.pauses == if |teams| == 0 then 0 else |teams| - 1
  {
    var successes, failures, outputs, pauses := 0, 0, [], 0;
    var i := 0;
    while i < |teams|
      invariant i <= |teams|
      invariant successes + failures == i
      invariant successes == Successes(results[..i])
      invariant |outputs| == i
      invariant forall k :: 0 <= k < i ==> outputs[k] == FileName(teams[k].name)
      invariant pauses == if i == 0 then 0 else i - 1
    {
      SuccessesStep(results, i);
      if results[i].Success? {
        successes := successes + 1;
      } else {
        failures := failures + 1;
      }
      var output := FileName(teams[i].name);
      ghost var before := outputs;
      outputs := outputs + [output];
      forall k | 0 <= k < i + 1
        ensures outputs[k] == FileName(teams[k].name)
      {
        if k < i {
          assert outputs[k] == before[k];
        }
      }
      if i > 0 {
        pauses := pauses + 1;
      }
      i := i + 1;
    }
    assert results[..i] == results;
    s := Summary(successes, failures, outputs, pauses);
  }

  /** A target that fails costs exactly one failure and touches no other target's
      outcome: turning one result into a failure lowers the success count by at most
      that one team. */
  lemma {:induction false} OneFailureCountsOnce(results: seq<Outcome>, k: nat, e: ScrapeError)
    requires k < |results|
    ensures Successes(results[k := Failure(e)]) ==
      Successes(results) - (if results[k].Success? then 1 else 0)
  {
    var n := |results|;
    var q := results[k := Failure(e)];
    if k == n - 1 {
      assert q[..n - 1] == results[..n - 1];
    } else {
      OneFailureCountsOnce(results[..n - 1], k, e);
      assert q[..n - 1] == results[..n - 1][k := Failure(e)];
      assert q[n - 1] == results[n - 1];
    }
  }

  // ---------------------------------------------------------------------------
  // A single argument

  /** The position of the last team called `name`, if any. */
  function LastIndexOf(teams: seq<Team>, name: string): (r: Option<nat>)
    ensures r.None? <==> forall i :: 0 <= i < |teams| ==> teams[i].name != name
    ensures r.Some? ==> r.value < |teams| && teams[r.value].name == name
    ensures r.Some? ==> forall j :: r.value < j < |teams| ==> teams[j].name != name
  {
    if |teams| == 0 then None
    else if teams[|teams| - 1].name == name then Some(|teams| - 1)
    else
      var init := teams[..|teams| - 1];
      assert forall i :: 0 <= i < |init| ==> init[i] == teams[i];
      LastIndexOf(init, name)
  }

  /** `{team_name: team_url for team_name, team_url in teams}`: each entry overwrites
      any earlier one with the same name. */
  function TeamDict(teams: seq<Team>): (r: map<string, string>)
    ensures |r| <= |teams|
    ensures forall i :: 0 <= i < |teams| ==> teams[i].name in r
  {
    if |teams| == 0 then map[]
    else TeamDict(teams[..|teams| - 1])[teams[|teams| - 1].name := teams[|teams| - 1].url]
  }

  /** The dictionary holds exactly the configured names, each with the URL of its last
      occurrence. */
  lemma {:induction false} TeamDictLastWins(teams: seq<Team>, name: string)
    ensures name in TeamDict(teams) <==> LastIndexOf(teams, name).Some?
    ensures name in TeamDict(teams) ==> TeamDict(teams)[name] == teams[LastIndexOf(teams, name).value].url
  {
    if |teams| > 0 {
      var init := teams[..|teams| - 1];
      TeamDictLastWins(init, name);
      if teams[|teams| - 1].name != name {
        assert LastIndexOf(teams, name) == LastIndexOf(init, name);
        if LastIndexOf(init, name).Some? {
          assert init[LastIndexOf(init, name).value] == teams[LastIndexOf(init, name).value];
        }
      }
    }
  }

  /** What `process_single_argument` does with its argument. A direct URL is written to
      a randomly named file, which is not modelled. */
  datatype Action =
    | ScrapeTeam(name: string, url: string, output: string)
    | ScrapeUrl(url: string)
    | InvalidArgument

  /** `process_single_argument` given the configured teams: a configured name is looked
      up first, and only then is the argument taken as a URL when it starts with `http`. */
  function Dispatch(arg: string, teams: seq<Team>): (a: Action)
    ensures a.ScrapeTeam? <==> exists i :: 0 <= i < |teams| && teams[i].name == arg
    ensures a.ScrapeTeam? ==> a.name == arg && a.output == FileName(arg)
    ensures a.ScrapeTeam? ==> exists i :: (0 <= i < |teams| && teams[i] == Team(arg, a.url)
      && forall j :: i < j < |teams| ==> teams[j].name != arg)
    ensures a.ScrapeUrl? <==>
      (forall i :: 0 <= i < |teams| ==> teams[i].name != arg) && StartsWith(arg, "http")
    ensures a.ScrapeUrl? ==> a.url == arg
  {
    var dict := TeamDict(teams);
    TeamDictLastWins(teams, arg);
    if arg in dict then ScrapeTeam(arg, dict[arg], FileName(arg))
    else if StartsWith(arg, "http") then ScrapeUrl(arg)
    else InvalidArgument
  }

  /** Among duplicate names the last one configured wins, even over an argument that
      also looks like a URL: `pre` may name the same team any number of times. */
  lemma {:induction false} LastDuplicateWins(pre: seq<Team>, name: string, url: string, post: seq<Team>)
    requires forall j :: 0 <= j < |post| ==> post[j].name != name
    ensures Dispatch(name, pre + [Team(name, url)] + post) == ScrapeTeam(name, url, FileName(name))
  {
    var teams := pre + [Team(name, url)] + post;
    var k := |pre|;
    assert teams[k] == Team(name, url);
    var a := Dispatch(name, teams);
    var i :| 0 <= i < |teams| && teams[i] == Team(name, a.url)
      && forall j :: i < j < |teams| ==> teams[j].name != name;
  }

  /** The main block's choice on the arguments after the program name. */
  datatype Command = ProcessAll | ProcessOne(action: Action) | Usage

  /** A loaded team comes from a team row of the configuration that names it. */
  lemma LoadedTeamHasRow(rows: seq<seq<string>>, t: Team)
    requires t in LoadTeams(rows)
    ensures exists r :: r in rows && IsTeamRow(r) && Strip(r[0]) == t.name && Strip(r[1]) == t.url
  {
    LoadTeamsIsFilter(rows);
    var teams := LoadTeams(rows);
    var i :| 0 <= i < |teams| && teams[i] == t;
    var r := Filter(IsTeamRow, rows)[i];
    assert r in rows && IsTeamRow(r);
  }

  /** Every team row of the configuration is loaded as a team. */
  lemma TeamRowLoaded(rows: seq<seq<string>>, r: seq<string>)
    requires r in rows && IsTeamRow(r)
    ensures TeamOf(r) in LoadTeams(rows)
  {
    LoadTeamsIsFilter(rows);
    var kept := Filter(IsTeamRow, rows);
    assert r in kept;
    var i :| 0 <= i < |kept| && kept[i] == r;
    assert LoadTeams(rows)[i] == TeamOf(r);
  }

  /** The whole command line: no argument processes every configured team, one argument
      is dispatched against the teams loaded from `rows`, more is a usage error. */
  function Run(args: seq<string>, rows: seq<seq<string>>): (c: Command)
    ensures |args| == 0 <==> c.ProcessAll?
    ensures |args| > 1 <==> c.Usage?
    ensures c.ProcessOne? && c.action.ScrapeTeam? ==>
      exists r :: r in rows && IsTeamRow(r) && Strip(r[0]) == args[0] && Strip(r[1]) == c.action.url
    ensures c.ProcessOne? && !c.action.ScrapeTeam? ==>
      forall r :: r in rows && IsTeamRow(r) ==> Strip(r[0]) != args[0]
  {
    if |args| == 0 then ProcessAll
    else if |args| == 1 then
      var teams := LoadTeams(rows);
      var a := Dispatch(args[0], teams);
      assert a.ScrapeTeam? ==>
        exists r :: r in rows && IsTeamRow(r) && Strip(r[0]) == args[0] && Strip(r[1]) == a.url by {
        if a.ScrapeTeam? {
          var i :| 0 <= i < |teams| && teams[i] == Team(args[0], a.url);
          LoadedTeamHasRow(rows, teams[i]);
        }
      }
      assert !a.ScrapeTeam? ==> forall r :: r in rows && IsTeamRow(r) ==> Strip(r[0]) != args[0] by {
        if !a.ScrapeTeam? {
          forall r | r in rows && IsTeamRow(r) ensures Strip(r[0]) != args[0] {
            TeamRowLoaded(rows, r);
          }
        }
      }
      ProcessOne(a)
    else Usage
  }

  /** A configured name that starts with `http` is a team, not a URL. */
  lemma ExampleNameLooksLikeUrl(name: string, teams: seq<Team>)
    requires name == "http-club"
    requires teams == [Team(name, "https://a"), Team("U18", "https://b")]
    ensures StartsWith(name, "http")
    ensures Dispatch(name, teams) == ScrapeTeam(name, "https://a", FileName(name))
  {
    assert |teams[1].name| != |name|;
    LastDuplicateWins([], name, "https://a", [teams[1]]);
    assert [] + [Team(name, "https://a")] + [teams[1]] == teams;
  }

  /** An unknown argument that starts with `http` is scraped as a URL. */
  lemma ExampleDirectUrl(teams: seq<Team>)
    requires teams == [Team("http-club", "https://a"), Team("U18", "https://b")]
    ensures Dispatch("http://x.fr", teams) == ScrapeUrl("http://x.fr")
  {
    assert "http://x.fr"[..4] == "http";
    assert forall i :: 0 <= i < |teams| ==> |teams[i].name| != |"http://x.fr"|;
  }

  /** Any other unknown argument is rejected. */
  lemma ExampleInvalid(teams: seq<Team>)
    requires teams == [Team("http-club", "https://a"), Team("U18", "https://b")]
    ensures Dispatch("U2", teams) == InvalidArgument
  {
    assert forall i :: 0 <= i < |teams| ==> |teams[i].name| != |"U2"|;
  }
}

=== FILE: config.dfy ===
/** Reading the (team name, URL) list from the rows of the configuration file, after
    `csv.reader` has split them into fields (volley_scraper_final.py:32-58). */
module Config {
  import opened Wrappers
  import opened Text
  import opened Seqs

  /** One configured target. */
  datatype Team = Team(name: string, url: string)

  /** The first character that is not whitespace is `#`. */
  predicate IsComment(field: string)
  {
    var b := TrimmedStart(field, 0);
    b < |field| && field[b] == '#'
  }

  /** A field that is not blank strips down to text that starts where its first
      non-whitespace character is. */
  lemma StripStartsAtFirstNonSpace(field: string)
    requires TrimmedEnd(field, |field|) > 0
    ensures TrimmedStart(field, 0) < |field|
    ensures |Strip(field)| > 0 && Strip(field)[0] == field[TrimmedStart(field, 0)]
  {
    var e := TrimmedEnd(field, |field|);
    var pre := field[..e];
    var b := TrimmedStart(pre, 0);
    assert pre[e - 1] == field[e - 1];
    TrimmedStartPrefix(field, e, 0);
    assert Strip(field) == pre[b..];
  }

  /** A blank field strips to nothing and is not a comment. */
  lemma BlankStripsToNothing(field: string)
    requires TrimmedEnd(field, |field|) == 0
    ensures Strip(field) == []
    ensures TrimmedStart(field, 0) == |field|
  {
  }

  /** `field.strip().startswith('#')` is exactly `IsComment(field)`. */
  lemma CommentIffStrippedHash(field: string)
    ensures IsComment(field) <==> StartsWith(Strip(field), "#")
  {
    if TrimmedEnd(field, |field|) > 0 {
      StripStartsAtFirstNonSpace(field);
      var stripped := Strip(field);
      assert stripped[..1] == [stripped[0]];
    } else {
      BlankStripsToNothing(field);
    }
  }

  /** An empty row or a comment: passed over without a warning. */
  predicate IsSkipped(row: seq<string>)
  {
    |row| == 0 || IsComment(row[0])
  }

  /** A row that yields a team. */
  predicate IsTeamRow(row: seq<string>)
  {
    !IsSkipped(row) && |row| >= 2
  }

  /** A row that is neither skipped nor a team: a warning names its line. */
  predicate IsMalformed(row: seq<string>)
  {
    !IsSkipped(row) && |row| < 2
  }

  /** The first two fields, stripped; further fields are ignored. */
  function TeamOf(row: seq<string>): Team
    requires |row| >= 2
  {
    Team(Strip(row[0]), Strip(row[1]))
  }

  /** What one row contributes to the team list: one team or nothing. */
  function RowTeams(row: seq<string>): seq<Team>
  {
    if IsTeamRow(row) then [TeamOf(row)] else []
  }

  /** The teams that `load_teams_config` returns for the given rows. */
  function LoadTeams(rows: seq<seq<string>>): (r: seq<Team>)
    ensures |r| <= |rows|
  {
    if |rows| == 0 then [] else RowTeams(rows[0]) + LoadTeams(rows[1..])
  }

  /** What one row, on line `line`, contributes to the warnings. */
  function RowWarnings(row: seq<string>, line: nat): seq<nat>
  {
    if IsMalformed(row) then [line] else []
  }

  /** The line numbers (the first row is on line `first`) of the malformed rows, in order. */
  function MalformedLines(rows: seq<seq<string>>, first: nat): seq<nat>
  {
    if |rows| == 0 then [] else RowWarnings(rows[0], first) + MalformedLines(rows[1..], first + 1)
  }

  /** Rows are read in order: loading a concatenation concatenates the results. */
  lemma {:induction false} LoadTeamsAppend(a: seq<seq<string>>, b: seq<seq<string>>)
    ensures LoadTeams(a + b) == LoadTeams(a) + LoadTeams(b)
  {
    if |a| == 0 {
      assert a + b == b;
    } else {
      var ab := a + b;
      assert ab[0] == a[0];
      assert ab[1..] == a[1..] + b;
      LoadTeamsAppend(a[1..], b);
      var x, y, z := RowTeams(a[0]), LoadTeams(a[1..]), LoadTeams(b);
      assert LoadTeams(ab) == x + (y + z);
      assert x + (y + z) == (x + y) + z;
    }
  }

  /** Warnings are collected in order, with line numbers continuing across the join. */
  lemma {:induction false} MalformedLinesAppend(a: seq<seq<string>>, b: seq<seq<string>>, first: nat)
    ensures MalformedLines(a + b, first) == MalformedLines(a, first) + MalformedLines(b, first + |a|)
  {
    if |a| == 0 {
      assert a + b == b;
    } else {
      var ab := a + b;
      assert ab[0] == a[0];
      assert ab[1..] == a[1..] + b;
      MalformedLinesAppend(a[1..], b, first + 1);
      var x, y, z := RowWarnings(a[0], first), MalformedLines(a[1..], first + 1), MalformedLines(b, first + |a|);
      assert MalformedLines(ab, first) == x + (y + z);
      assert x + (y + z) == (x + y) + z;
    }
  }

  /** Exactly the team rows yield a team, in order: one per row that is neither empty,
      nor a comment, nor short. */
  lemma {:induction false} LoadTeamsIsFilter(rows: seq<seq<string>>)
    ensures |LoadTeams(rows)| == |Filter(IsTeamRow, rows)|
    ensures forall i :: 0 <= i < |LoadTeams(rows)| ==>
      LoadTeams(rows)[i] == TeamOf(Filter(IsTeamRow, rows)[i])
  {
    if |rows| > 0 {
      LoadTeamsIsFilter(rows[1..]);
      var rest := LoadTeams(rows[1..]);
      var kept := Filter(IsTeamRow, rows[1..]);
      if IsTeamRow(rows[0]) {
        var all := LoadTeams(rows);
        var filtered := Filter(IsTeamRow, rows);
        assert filtered == [rows[0]] + kept;
        assert all == [TeamOf(rows[0])] + rest;
        forall i | 0 <= i < |all| ensures all[i] == TeamOf(filtered[i]) {
          if i > 0 {
            assert all[i] == rest[i - 1] && filtered[i] == kept[i - 1];
          }
        }
      } else {
        assert Filter(IsTeamRow, rows) == kept;
        assert LoadTeams(rows) == rest;
      }
    }
  }

  /** A name and URL without surrounding whitespace, and a name that is not a comment. */
  predicate IsCleanTeam(t: Team)
  {
    Strip(t.name) == t.name && Strip(t.url) == t.url && !StartsWith(t.name, "#")
  }

  /** The team a team row yields has a stripped name and URL, and the name is not a
      comment. */
  lemma TeamOfStripped(row: seq<string>)
    requires IsTeamRow(row)
    ensures IsCleanTeam(TeamOf(row))
  {
    StripIdempotent(row[0]);
    StripIdempotent(row[1]);
    CommentIffStrippedHash(row[0]);
  }

  /** Every loaded team has a stripped name and URL, and the name is not a comment. */
  lemma {:induction false} LoadTeamsStripped(rows: seq<seq<string>>)
    ensures forall i :: 0 <= i < |LoadTeams(rows)| ==> IsCleanTeam(LoadTeams(rows)[i])
  {
    if |rows| > 0 {
      LoadTeamsStripped(rows[1..]);
      var rest := LoadTeams(rows[1..]);
      if IsTeamRow(rows[0]) {
        TeamOfStripped(rows[0]);
        var all := LoadTeams(rows);
        assert all == [TeamOf(rows[0])] + rest;
        forall i | 0 <= i < |all| ensures IsCleanTeam(all[i]) {
          if i > 0 {
            assert all[i] == rest[i - 1];
          }
        }
      } else {
        assert LoadTeams(rows) == rest;
      }
    }
  }

  /** Every row is skipped, loaded or warned about, never two of these: the teams and
      the warnings together account for at most one entry per row. */
  lemma {:induction false} EachRowCountedOnce(rows: seq<seq<string>>, first: nat)
    ensures |LoadTeams(rows)| + |MalformedLines(rows, first)| <= |rows|
    ensures |LoadTeams(rows)| + |MalformedLines(rows, first)| ==
      |rows| - |Filter(IsSkipped, rows)|
  {
    if |rows| > 0 {
      EachRowCountedOnce(rows[1..], first + 1);
      assert |LoadTeams(rows)| == |RowTeams(rows[0])| + |LoadTeams(rows[1..])|;
      assert |MalformedLines(rows, first)| ==
        |RowWarnings(rows[0], first)| + |MalformedLines(rows[1..], first + 1)|;
      if IsSkipped(rows[0]) {
        assert Filter(IsSkipped, rows) == [rows[0]] + Filter(IsSkipped, rows[1..]);
      } else {
        assert Filter(IsSkipped, rows) == Filter(IsSkipped, rows[1..]);
      }
    }
  }

  /** One more row read: the teams so far grow by what that row contributes. */
  lemma {:induction false} LoadOneMore(rows: seq<seq<string>>, n: nat)
    requires n < |rows|
    ensures LoadTeams(rows[..n + 1]) == LoadTeams(rows[..n]) + RowTeams(rows[n])
  {
    var last := [rows[n]];
    assert rows[..n + 1] == rows[..n] + last;
    LoadTeamsAppend(rows[..n], last);
    assert LoadTeams(last) == RowTeams(rows[n]) + LoadTeams([]);
  }

  /** One more row read: the warnings so far grow by what that row, on line `n + 1`,
      contributes. */
  lemma {:induction false} WarnOneMore(rows: seq<seq<string>>, n: nat)
    requires n < |rows|
    ensures MalformedLines(rows[..n + 1], 1) == MalformedLines(rows[..n], 1) + RowWarnings(rows[n], n + 1)
  {
    var last := [rows[n]];
    assert rows[..n + 1] == rows[..n] + last;
    MalformedLinesAppend(rows[..n], last, 1);
    assert MalformedLines(last, n + 1) == RowWarnings(rows[n], n + 1) + MalformedLines([], n + 2);
  }

  /** The three branches of the loop body, stated in the terms of the source's tests. */
  lemma RowCases(row: seq<string>, line: nat)
    ensures |row| == 0 || StartsWith(Strip(row[0]), "#") ==>
      RowTeams(row) == [] && RowWarnings(row, line) == []
    ensures !(|row| == 0 || StartsWith(Strip(row[0]), "#")) && |row| >= 2 ==>
      RowTeams(row) == [Team(Strip(row[0]), Strip(row[1]))] && RowWarnings(row, line) == []
    ensures !(|row| == 0 || StartsWith(Strip(row[0]), "#")) && |row| < 2 ==>
      RowTeams(row) == [] && RowWarnings(row, line) == [line]
  {
    if |row| > 0 {
      CommentIffStrippedHash(row[0]);
    }
  }

  /** The loop of `load_teams_config`: the teams and the line numbers it warns about.
      A missing file (`None`) gives no teams. */
  method LoadTeamsConfig(file: Option<seq<seq<string>>>) returns (teams: seq<Team>, warnings: seq<nat>)
    ensures file.None? ==> teams == [] && warnings == []
    ensures file.Some? ==> teams == LoadTeams(file.value) && warnings == MalformedLines(file.value, 1)
    ensures file.Some? ==> |teams| + |warnings| <= |file.value|
  {
    teams, warnings := [], [];
    if file.None? {
      return;
    }
    var rows := file.value;
    var n := 0;
    while n < |rows|
      invariant n <= |rows|
      invariant teams == LoadTeams(rows[..n])
      invariant warnings == MalformedLines(rows[..n], 1)
    {
      var row := rows[n];
      LoadOneMore(rows, n);
      WarnOneMore(rows, n);
      if IsSkipped(row) {
        assert RowTeams(row) == [] && RowWarnings(row, n + 1) == [];
      } else if |row| >= 2 {
        assert RowTeams(row) == [TeamOf(row)] && RowWarnings(row, n + 1) == [];
        teams := teams + [TeamOf(row)];
      } else {
        assert RowTeams(row) == [] && RowWarnings(row, n + 1) == [n + 1];
        warnings := warnings + [n + 1];
      }
      n := n + 1;
    }
    assert rows[..n] == rows;
    EachRowCountedOnce(rows, 1);
  }

  /** A comment row and an empty row yield nothing. */
  lemma SkippedRowExamples()
    ensures RowTeams(["# name", "url"]) == [] && RowWarnings(["# name", "url"], 1) == []
    ensures RowTeams(["  #", "url"]) == [] && RowWarnings(["  #"], 1) == []
    ensures RowTeams([]) == [] && RowWarnings([], 1) == []
  {
    assert TrimmedStart("# name", 0) == 0;
    assert TrimmedStart("  #", 0) == 2;
  }

  /** A one-field row is warned about, on its own line. */
  lemma ShortRowExample()
    ensures RowTeams(["U18"]) == [] && RowWarnings(["U18"], 3) == [3]
  {
    assert TrimmedStart("U18", 0) == 0;
  }

  /** A padded team row with an extra field yields its two stripped fields. */
  lemma PaddedRowExample()
    ensures RowTeams([" PreNat ", " https://a ", "x"]) == [Team("PreNat", "https://a")]
  {
    assert TrimmedStart(" PreNat ", 1) == 1;
    assert TrimmedEnd(" PreNat ", 8) == 7;
    assert TrimEnd(" PreNat ") == " PreNat";
    assert TrimmedStart(" PreNat", 0) == 1;
    assert TrimmedEnd(" https://a ", 11) == 10;
    assert TrimEnd(" https://a ") == " https://a";
    assert TrimmedStart(" https://a", 0) == 1;
  }
}

=== FILE: filenames.dfy ===
/** The output file name derived from a team name: characters other than letters,
    digits, spaces, `-` and `_` are dropped, trailing whitespace is removed, and the
    remaining spaces become underscores (volley_scraper_final.py:289-291, repeated at
    volley_scraper_final.py:340-342). */
module Filenames {
  import opened Text
  import opened Seqs

  /** A character the comprehension keeps: `c.isalnum() or c in (' ', '-', '_')`. */
  predicate IsKept(c: char)
  {
    IsAlnum(c) || c == ' ' || c == '-' || c == '_'
  }

  /** A character that may appear in a sanitised stem. */
  predicate IsStemChar(c: char)
  {
    IsAlnum(c) || c == '-' || c == '_'
  }

  /** `s.replace(' ', '_')`. */
  function Underscored(s: string): (r: string)
    ensures |r| == |s|
    ensures forall i :: 0 <= i < |s| ==> r[i] == (if s[i] == ' ' then '_' else s[i])
  {
    seq(|s|, i requires 0 <= i < |s| => if s[i] == ' ' then '_' else s[i])
  }

  /** The sanitised stem of a team name. */
  function Stem(name: string): (r: string)
    ensures forall i :: 0 <= i < |r| ==> IsStemChar(r[i])
    ensures |r| <= |name|
  {
    var kept := Filter(IsKept, name);
    var trimmed := TrimEnd(kept);
    assert forall i :: 0 <= i < |trimmed| ==> IsKept(trimmed[i]) by {
      forall i | 0 <= i < |trimmed| ensures IsKept(trimmed[i]) {
        assert trimmed[i] == kept[i];
      }
    }
    Underscored(trimmed)
  }

  /** The `.xlsx` file the team's standings are written to. */
  function FileName(name: string): (r: string)
    ensures EndsWith(r, ".xlsx")
    ensures forall i :: 0 <= i < |r| - 5 ==> r[i] != '.' && r[i] != '/'
  {
    var stem := Stem(name);
    var r := stem + ".xlsx";
    assert r[|r| - 5..] == ".xlsx";
    assert forall i :: 0 <= i < |r| - 5 ==> r[i] == stem[i];
    r
  }

  /** What survives into a stem is never whitespace. */
  lemma StemCharNotSpace(c: char)
    requires IsStemChar(c)
    ensures !IsSpace(c) && c != ' '
  {
  }

  /** Replacing spaces changes nothing in a string without spaces. */
  lemma UnderscoredNoSpace(s: string)
    requires forall i :: 0 <= i < |s| ==> s[i] != ' '
    ensures Underscored(s) == s
  {
  }

  /** A name made only of letters, digits, `-` and `_` is its own stem. */
  lemma SafeNameUnchanged(name: string)
    requires forall i :: 0 <= i < |name| ==> IsStemChar(name[i])
    ensures Stem(name) == name
  {
    FilterKeepsAll(IsKept, name);
    if |name| > 0 {
      StemCharNotSpace(name[|name| - 1]);
    }
    TrimEndNoTrailingSpace(name);
    UnderscoredNoSpace(name);
  }

  /** Sanitising twice is sanitising once. */
  lemma StemIdempotent(name: string)
    ensures Stem(Stem(name)) == Stem(name)
  {
    SafeNameUnchanged(Stem(name));
  }

  /** Whatever follows the last kept letter, digit, `-` or `_` of the name leaves no
      trace in the stem: trailing spaces are stripped before they could become
      underscores, and other characters are dropped. */
  lemma {:induction false} TailIgnored(name: string, tail: string)
    requires forall i :: 0 <= i < |tail| ==> !IsStemChar(tail[i])
    ensures Stem(name + tail) == Stem(name)
  {
    FilterAppend(IsKept, name, tail);
    var spaces := Filter(IsKept, tail);
    assert forall k :: 0 <= k < |spaces| ==> IsSpace(spaces[k]) by {
      forall k | 0 <= k < |spaces| ensures IsSpace(spaces[k]) {
        assert spaces[k] in tail && IsKept(spaces[k]);
        assert spaces[k] == ' ';
      }
    }
    TrimEndAppendSpaces(Filter(IsKept, name), spaces);
  }

  /** A character outside the kept set is dropped wherever it occurs. */
  lemma {:induction false} DroppedAnywhere(a: string, c: char, b: string)
    requires !IsKept(c)
    ensures Stem(a + [c] + b) == Stem(a + b)
  {
    var single: string := [c];
    FilterAppend(IsKept, a + single, b);
    FilterAppend(IsKept, a, single);
    FilterAppend(IsKept, a, b);
    assert single[1..] == [];
    assert Filter(IsKept, single) == [];
    assert Filter(IsKept, a + single + b) == Filter(IsKept, a + b);
  }

  /** A stem character of `b` survives the filter and is not whitespace, so the
      trimming of the filtered text stops after it. */
  lemma StemCharStopsTrim(b: string)
    requires exists i :: 0 <= i < |b| && IsStemChar(b[i])
    ensures TrimmedEnd(Filter(IsKept, b), |Filter(IsKept, b)|) > 0
  {
    var fb := Filter(IsKept, b);
    var i :| 0 <= i < |b| && IsStemChar(b[i]);
    assert b[i] in fb;
    var j :| 0 <= j < |fb| && fb[j] == b[i];
    StemCharNotSpace(fb[j]);
  }

  /** A kept character stays in place between what is kept of its two sides. */
  lemma KeptAround(a: string, c: char, b: string)
    requires IsKept(c)
    ensures Filter(IsKept, a + [c] + b) == Filter(IsKept, a) + [c] + Filter(IsKept, b)
  {
    var single: string := [c];
    assert single[1..] == [];
    assert Filter(IsKept, single) == single;
    FilterAppend(IsKept, a + single, b);
    FilterAppend(IsKept, a, single);
  }

  /** A space and an underscore are written the same. */
  lemma UnderscoredSpaceOrUnderscore(x: string, y: string)
    ensures Underscored(x + " " + y) == Underscored(x + "_" + y)
  {
    var u, v := x + " " + y, x + "_" + y;
    forall k | 0 <= k < |u|
      ensures Underscored(u)[k] == Underscored(v)[k]
    {
      if k != |x| {
        assert u[k] == v[k];
      }
    }
  }

  /** An inner space and an underscore in its place give the same stem, so long as
      something that survives into the stem follows it. */
  lemma InnerSpaceUnderscored(a: string, b: string)
    requires exists i :: 0 <= i < |b| && IsStemChar(b[i])
    ensures Stem(a + " " + b) == Stem(a + "_" + b)
  {
    var fa, fb := Filter(IsKept, a), Filter(IsKept, b);
    KeptAround(a, ' ', b);
    KeptAround(a, '_', b);
    StemCharStopsTrim(b);
    TrimEndKeepsPrefix(fa + " ", fb);
    TrimEndKeepsPrefix(fa + "_", fb);
    UnderscoredSpaceOrUnderscore(fa, TrimEnd(fb));
  }

  /** The file name determines the stem: it is the text before the `.xlsx` suffix. */
  lemma FileNameStem(name: string)
    ensures FileName(name)[..|FileName(name)| - 5] == Stem(name)
  {
  }

  /** An inner space becomes an underscore. */
  lemma ExampleInnerSpace(name: string)
    requires name == "A 1"
    ensures Stem(name) == "A_1"
  {
    FilterKeepsAll(IsKept, name);
    assert !IsSpace(name[2]);
    assert TrimEnd(name) == name;
    assert Underscored(name) == "A_1";
  }

  /** An underscore the name itself ends with is kept. */
  lemma ExampleTrailingUnderscore(name: string)
    requires name == "U-9_"
    ensures Stem(name) == "U-9_"
  {
    assert IsStemChar(name[0]) && IsStemChar(name[1]) && IsStemChar(name[2]) && IsStemChar(name[3]);
    SafeNameUnchanged(name);
  }

  /** A name of punctuation only has an empty stem. */
  lemma ExamplePunctuationOnly()
    ensures Stem("!?") == ""
  {
    TailIgnored("", "!?");
    assert "" + "!?" == "!?";
  }
}

=== FILE: grids.dfy ===
/** The tabular data the scraper moves around: a parsed HTML table (a pandas DataFrame
    straight out of `read_html`) and the cleaned grid that keeps the original column
    labels. A `None` cell stands for NaN. */
module Grids {
  import opened Wrappers

  type Row = seq<Option<string>>

  datatype RawTable = RawTable(width: nat, rows: seq<Row>)

  /** A parsed table is rectangular: every row has one cell per column. Its columns are
      labelled 0, 1, ..., width - 1, as `read_html` labels a table without a header row. */
  type Table = t: RawTable | forall i :: 0 <= i < |t.rows| ==> |t.rows[i]| == t.width
    witness RawTable(0, [])

  /** A table after some columns were dropped; `labels[k]` is the original index of the
      k-th remaining column. */
  datatype Grid = Grid(labels: seq<nat>, rows: seq<Row>)

  predicate WellFormed(g: Grid)
  {
    forall i :: 0 <= i < |g.rows| ==> |g.rows[i]| == |g.labels|
  }
}

=== FILE: normaliser.dfy ===
/** The row/column normaliser `clean_and_save_data`, without the Excel output
    (volley_scraper_final.py:132-190). */
module Normaliser {
  import opened Wrappers
  import opened Seqs
  import opened Text
  import opened Grids
  import opened Signatures
  import opened Percentage

  // ---------------------------------------------------------------------------
  // Step 1: drop the rows, then the columns, that hold nothing but NaN

  predicate NonEmptyRow(r: Row)
  {
    exists k :: 0 <= k < |r| && r[k].Some?
  }

  predicate ColumnHasValue(rows: seq<Row>, c: nat)
  {
    exists i :: 0 <= i < |rows| && c < |rows[i]| && rows[i][c].Some?
  }

  /** The columns below `width` that hold a value in some row, ascending. */
  function KeptColumns(rows: seq<Row>, width: nat): (cols: seq<nat>)
    ensures Increasing(cols)
    ensures forall k :: 0 <= k < |cols| ==> cols[k] < width
    ensures forall c: nat :: c in cols <==> c < width && ColumnHasValue(rows, c)
  {
    IndicesWhere((c: nat) => ColumnHasValue(rows, c), 0, width)
  }

  /** When every column holds a value, every column is kept. */
  lemma KeptColumnsAll(rows: seq<Row>, width: nat)
    requires forall c: nat :: c < width ==> ColumnHasValue(rows, c)
    ensures KeptColumns(rows, width) == Range(width)
  {
    IndicesWhereAll((c: nat) => ColumnHasValue(rows, c), 0, width);
  }

  /** The cells of `row` in the columns `cols`, in that order. */
  function Project(row: Row, cols: seq<nat>): (r: Row)
    requires forall k :: 0 <= k < |cols| ==> cols[k] < |row|
    ensures |r| == |cols| && forall k :: 0 <= k < |cols| ==> r[k] == row[cols[k]]
  {
    seq(|cols|, k requires 0 <= k < |cols| => row[cols[k]])
  }

  /** An all-NaN row has no value in any column, so dropping such rows first does not
      change which columns hold a value. */
  lemma DropRowsKeepsColumns(rows: seq<Row>, c: nat)
    ensures ColumnHasValue(Filter(NonEmptyRow, rows), c) <==> ColumnHasValue(rows, c)
  {
    var kept := Filter(NonEmptyRow, rows);
    if ColumnHasValue(rows, c) {
      var i :| 0 <= i < |rows| && c < |rows[i]| && rows[i][c].Some?;
      assert NonEmptyRow(rows[i]);
      assert rows[i] in kept;
      var i' :| 0 <= i' < |kept| && kept[i'] == rows[i];
    }
    if ColumnHasValue(kept, c) {
      var i :| 0 <= i < |kept| && c < |kept[i]| && kept[i][c].Some?;
      assert kept[i] in rows;
    }
  }

  /** `df.dropna(how='all').dropna(axis=1, how='all')`: the non-empty rows in their
      original order, restricted to the columns that hold a value, each column keeping
      its original index as its label. */
  function Clean(t: Table): (g: Grid)
    ensures WellFormed(g)
    ensures Increasing(g.labels)
    ensures forall k :: 0 <= k < |g.labels| ==> g.labels[k] < t.width
    ensures forall c: nat :: c in g.labels <==> c < t.width && ColumnHasValue(t.rows, c)
    ensures forall i :: 0 <= i < |Filter(NonEmptyRow, t.rows)| ==>
      |Filter(NonEmptyRow, t.rows)[i]| == t.width
    ensures |g.rows| == |Filter(NonEmptyRow, t.rows)|
    ensures forall i :: 0 <= i < |g.rows| ==>
      g.rows[i] == Project(Filter(NonEmptyRow, t.rows)[i], g.labels)
  {
    var kept := Filter(NonEmptyRow, t.rows);
    assert forall i :: 0 <= i < |kept| ==> |kept[i]| == t.width by {
      forall i | 0 <= i < |kept| ensures |kept[i]| == t.width {
        assert kept[i] in t.rows;
      }
    }
    var cols := KeptColumns(kept, t.width);
    forall c: nat ensures c in cols <==> c < t.width && ColumnHasValue(t.rows, c) {
      DropRowsKeepsColumns(t.rows, c);
    }
    Grid(cols, seq(|kept|, i requires 0 <= i < |kept| => Project(kept[i], cols)))
  }

  /** After cleaning, no row and no column is entirely NaN. */
  lemma CleanLeavesNoEmptyLine(t: Table)
    ensures forall i :: 0 <= i < |Clean(t).rows| ==> NonEmptyRow(Clean(t).rows[i])
    ensures forall k :: 0 <= k < |Clean(t).labels| ==> ColumnHasValue(Clean(t).rows, k)
  {
    var g := Clean(t);
    var kept := Filter(NonEmptyRow, t.rows);
    forall i | 0 <= i < |g.rows| ensures NonEmptyRow(g.rows[i]) {
      assert kept[i] in t.rows && NonEmptyRow(kept[i]);
      var c :| 0 <= c < |kept[i]| && kept[i][c].Some?;
      DropRowsKeepsColumns(t.rows, c);
      assert ColumnHasValue(kept, c);
      assert c in g.labels;
      var k := IndexOf(g.labels, c);
      assert g.rows[i][k] == kept[i][c];
    }
    forall k | 0 <= k < |g.labels| ensures ColumnHasValue(g.rows, k) {
      var c := g.labels[k];
      assert c in g.labels;
      DropRowsKeepsColumns(t.rows, c);
      var i :| 0 <= i < |kept| && c < |kept[i]| && kept[i][c].Some?;
      assert g.rows[i][k] == kept[i][c];
    }
  }

  function Range(n: nat): (r: seq<nat>)
    ensures |r| == n && forall k :: 0 <= k < n ==> r[k] == k
  {
    seq(n, k requires 0 <= k < n => k)
  }

  /** Projecting onto every column in order changes nothing. */
  lemma ProjectRange(row: Row)
    ensures Project(row, Range(|row|)) == row
  {
  }

  /** Cleaning is idempotent: a cleaned grid, read back as a fresh table, has nothing
      left to drop. */
  lemma CleanIdempotent(t: Table)
    ensures var g := Clean(t);
      var t': Table := RawTable(|g.labels|, g.rows);
      Clean(t').rows == g.rows && Clean(t').labels == Range(|g.labels|)
  {
    var g := Clean(t);
    var t': Table := RawTable(|g.labels|, g.rows);
    CleanLeavesNoEmptyLine(t);
    FilterKeepsAll(NonEmptyRow, g.rows);
    var g' := Clean(t');
    KeptColumnsAll(g.rows, |g.labels|);
    assert g'.labels == Range(|g.labels|);
    assert |g'.rows| == |g.rows|;
    forall i | 0 <= i < |g.rows| ensures g'.rows[i] == g.rows[i] {
      ProjectRange(g.rows[i]);
    }
  }

  // ---------------------------------------------------------------------------
  // Steps 2 and 3: the standings layout and its six named columns

  /** Fewer surviving columns than this and the table is returned as cleaned. */
  const StandingsWidth: nat := 19

  /** The names given to the columns labelled 0 to 5. */
  const FieldNames: seq<string> := ["Class.", "Equipe", "Pts.", "Jou.", "Gagn.", "Perd."]

  const PercentageName: string := "Pourcentage"

  const RankLabel: nat := 0
  const TeamLabel: nat := 1
  const WinsLabel: nat := 4
  const LossesLabel: nat := 5

  /** The labels 0 to 5 that survived cleaning, ascending. */
  function Present(labels: seq<nat>): (p: seq<nat>)
    ensures Increasing(p)
    ensures forall k :: 0 <= k < |p| ==> p[k] < |FieldNames| && p[k] in labels
    ensures forall c: nat :: c in p <==> c < |FieldNames| && c in labels
  {
    var p := IndicesWhere(InLabels(labels), 0, |FieldNames|);
    assert forall k :: 0 <= k < |p| ==> p[k] in p;
    p
  }

  /** Membership in `labels`, as a test on column labels. */
  function InLabels(labels: seq<nat>): nat -> bool
  {
    (c: nat) => c in labels
  }

  /** A percentage column is added only when both wins and losses survived. */
  predicate HasPercentage(labels: seq<nat>)
  {
    WinsLabel in labels && LossesLabel in labels
  }

  /** The output column names: the mapped names in the order of `FieldNames`, then
      'Pourcentage' when it is computed. */
  function Header(labels: seq<nat>): (h: seq<string>)
    ensures |h| == |Present(labels)| + (if HasPercentage(labels) then 1 else 0)
    ensures forall i :: 0 <= i < |Present(labels)| ==> h[i] == FieldNames[Present(labels)[i]]
    ensures HasPercentage(labels) ==> h[|h| - 1] == PercentageName
  {
    var p := Present(labels);
    seq(|p|, i requires 0 <= i < |p| => FieldNames[p[i]])
      + (if HasPercentage(labels) then [PercentageName] else [])
  }

  /** The seven output names are pairwise different. */
  lemma NamesDistinct()
    ensures forall a, b :: 0 <= a < b < |FieldNames| ==> FieldNames[a] != FieldNames[b]
    ensures forall k :: 0 <= k < |FieldNames| ==> FieldNames[k] != PercentageName
  {
    assert forall k :: 0 <= k < |FieldNames| ==> |FieldNames[k]| < |PercentageName|;
    // The second letters of the six field names, l q t o a e, are pairwise different.
    assert forall k :: 0 <= k < |FieldNames| ==> FieldNames[k][1] == "lqtoae"[k];
  }

  /** The name of label `k` is in the header exactly when `k` survived cleaning. */
  lemma HeaderNameIff(labels: seq<nat>, k: nat)
    requires k < |FieldNames|
    ensures FieldNames[k] in Header(labels) <==> k in labels
  {
    NamesDistinct();
    var p := Present(labels);
    var h := Header(labels);
    if k in labels {
      assert k in p;
      var j := IndexOf(p, k);
      assert h[j] == FieldNames[k];
    }
    if FieldNames[k] in h {
      var j :| 0 <= j < |h| && h[j] == FieldNames[k];
      if j < |p| {
        assert FieldNames[p[j]] == FieldNames[k];
      }
    }
  }

  /** 'Pourcentage' is in the header exactly when both wins and losses survived. */
  lemma HeaderPercentageIff(labels: seq<nat>)
    ensures PercentageName in Header(labels) <==> HasPercentage(labels)
  {
    NamesDistinct();
    var p := Present(labels);
    var h := Header(labels);
    if PercentageName in h {
      var j :| 0 <= j < |h| && h[j] == PercentageName;
      if j < |p| {
        assert FieldNames[p[j]] == PercentageName;
      }
    }
  }

  /** A column name appears in the header exactly when its label survived cleaning, and
      'Pourcentage' exactly when both wins and losses did. */
  lemma HeaderNamesIff(labels: seq<nat>)
    ensures forall k :: 0 <= k < |FieldNames| ==> (FieldNames[k] in Header(labels) <==> k in labels)
    ensures PercentageName in Header(labels) <==> HasPercentage(labels)
  {
    forall k | 0 <= k < |FieldNames| ensures FieldNames[k] in Header(labels) <==> k in labels {
      HeaderNameIff(labels, k);
    }
    HeaderPercentageIff(labels);
  }

  /** The cell of `row` in the column whose original label is `label`. */
  function CellOf(labels: seq<nat>, row: Row, original: nat): Option<string>
    requires |row| == |labels| && original in labels
  {
    row[IndexOf(labels, original)]
  }

  // ---------------------------------------------------------------------------
  // Step 4: rows whose rank cell is missing or repeats the header

  /** `str.contains('Pts.|Class.', case=False)`: either word followed by any character
      other than a newline, ignoring case. */
  predicate IsHeaderText(s: string): (r: bool)
    ensures r <==> exists i :: 0 <= i < |s| && (DottedAt(Lower(s), i, "pts") || DottedAt(Lower(s), i, "class"))
  {
    Matches(Dotted("pts"), Lower(s)) || Matches(Dotted("class"), Lower(s))
  }

  /** A rank cell that marks a data row: present and not header text. */
  predicate IsDataRank(cell: Option<string>)
  {
    cell.Some? && !IsHeaderText(cell.value)
  }

  /** Whether `row` survives the two filters on the 'Class.' column. */
  predicate KeepsRow(labels: seq<nat>, row: Row)
  {
    |row| == |labels| && RankLabel in labels && IsDataRank(CellOf(labels, row, RankLabel))
  }

  /** The rows that survive step 4, in their original order. */
  function DataRows(g: Grid): (rows: seq<Row>)
    ensures |rows| <= |g.rows|
    ensures forall i :: 0 <= i < |rows| ==> rows[i] in g.rows && KeepsRow(g.labels, rows[i])
    ensures forall i :: 0 <= i < |g.rows| && KeepsRow(g.labels, g.rows[i]) ==> g.rows[i] in rows
  {
    Filter(Keeps(g.labels), g.rows)
  }

  /** `KeepsRow` for a fixed set of labels, as a test on rows. */
  function Keeps(labels: seq<nat>): Row -> bool
  {
    (row: Row) => KeepsRow(labels, row)
  }

  /** The filter works row by row and keeps the order: the data rows of two blocks of
      rows are those of the first block followed by those of the second. */
  lemma DataRowsAppend(labels: seq<nat>, a: seq<Row>, b: seq<Row>)
    ensures DataRows(Grid(labels, a + b)) == DataRows(Grid(labels, a)) + DataRows(Grid(labels, b))
  {
    FilterAppend(Keeps(labels), a, b);
  }

  /** A single row is kept exactly when its rank cell is present and not header text. */
  lemma DataRowsOne(labels: seq<nat>, row: Row)
    ensures DataRows(Grid(labels, [row])) == if KeepsRow(labels, row) then [row] else []
  {
    assert [row][1..] == [];
  }

  // ---------------------------------------------------------------------------
  // Step 5: numeric coercion

  /** `pd.to_numeric(errors='coerce').fillna(0)` on one cell: the integer the text
      spells, or 0 for NaN and for text that is not an integer. */
  function Coerce(cell: Option<string>): (n: int)
    ensures cell.Some? && ParseInt(cell.value).Some? ==> n == ParseInt(cell.value).value
    ensures cell.None? || ParseInt(cell.value).None? ==> n == 0
  {
    match cell
    case None => 0
    case Some(s) => match ParseInt(s) case None => 0 case Some(v) => v
  }

  /** Coercion reads back what `str` wrote. */
  lemma CoerceRoundTrip(n: int)
    ensures Coerce(Some(IntToString(n))) == n
  {
    IntRoundTrip(n);
  }

  /** One output cell: the team name stays text (or NaN); the other five are integers. */
  datatype Value = Blank | Str(s: string) | Num(n: int)

  function FieldValue(original: nat, cell: Option<string>): Value
  {
    if original == TeamLabel then (match cell case None => Blank case Some(s) => Str(s))
    else Num(Coerce(cell))
  }

  // ---------------------------------------------------------------------------
  // Step 6: the output row, with the percentage when it can be computed

  function Wins(labels: seq<nat>, row: Row): int
    requires |row| == |labels| && HasPercentage(labels)
  {
    Coerce(CellOf(labels, row, WinsLabel))
  }

  function Losses(labels: seq<nat>, row: Row): int
    requires |row| == |labels| && HasPercentage(labels)
  {
    Coerce(CellOf(labels, row, LossesLabel))
  }

  /** The percentage of `row` cannot be formatted (an infinite ratio). */
  predicate PercentageFails(labels: seq<nat>, row: Row)
    requires |row| == |labels|
  {
    HasPercentage(labels) && WinPercentage(Wins(labels, row), Losses(labels, row)).None?
  }

  /** The output cells of one data row, one per `Header(labels)` entry. */
  function OutputRow(labels: seq<nat>, row: Row): (r: seq<Value>)
    requires |row| == |labels| && !PercentageFails(labels, row)
    ensures |r| == |Header(labels)|
    ensures forall i :: 0 <= i < |Present(labels)| ==>
      r[i] == FieldValue(Present(labels)[i], CellOf(labels, row, Present(labels)[i]))
    ensures HasPercentage(labels) ==>
      r[|r| - 1] == Str(WinPercentage(Wins(labels, row), Losses(labels, row)).value)
  {
    var p := Present(labels);
    var cells := seq(|p|, i requires 0 <= i < |p| => FieldValue(p[i], CellOf(labels, row, p[i])));
    if HasPercentage(labels) then
      cells + [Str(WinPercentage(Wins(labels, row), Losses(labels, row)).value)]
    else cells
  }

  /** Each output cell sits under the right name: the cell under a field name is the
      value of the original column that the mapping gives that name, and the cell under
      'Pourcentage' is the formatted percentage of the row's wins and losses. */
  lemma OutputRowByName(labels: seq<nat>, row: Row)
    requires |row| == |labels| && !PercentageFails(labels, row)
    ensures |OutputRow(labels, row)| == |Header(labels)|
    ensures forall i, k ::
      (0 <= i < |Header(labels)| && 0 <= k < |FieldNames| && Header(labels)[i] == FieldNames[k]) ==>
        k in labels && OutputRow(labels, row)[i] == FieldValue(k, CellOf(labels, row, k))
    ensures forall i :: 0 <= i < |Header(labels)| && Header(labels)[i] == PercentageName ==>
      HasPercentage(labels)
      && OutputRow(labels, row)[i] == Str(WinPercentage(Wins(labels, row), Losses(labels, row)).value)
  {
    NamesDistinct();
    var p := Present(labels);
    var h := Header(labels);
    var r := OutputRow(labels, row);
    forall i, k | 0 <= i < |h| && 0 <= k < |FieldNames| && h[i] == FieldNames[k]
      ensures k in labels && r[i] == FieldValue(k, CellOf(labels, row, k))
    {
      if i < |p| {
        assert FieldNames[p[i]] == FieldNames[k];
        assert p[i] == k;
      }
    }
    forall i | 0 <= i < |h| && h[i] == PercentageName
      ensures HasPercentage(labels)
      ensures r[i] == Str(WinPercentage(Wins(labels, row), Losses(labels, row)).value)
    {
    }
  }

  // ---------------------------------------------------------------------------
  // The whole normaliser

  /** The output table: the cleaned grid as it is, or the named standings columns. */
  datatype Output = Degraded(grid: Grid) | Mapped(header: seq<string>, rows: seq<seq<Value>>)

  /** Why normalising raised: `df_clean['Class.']` on a table without a column labelled
      0 (a KeyError), or a percentage that is infinite (an OverflowError in `int`). */
  datatype Error = MissingRankColumn | NonFinitePercentage

  /** Steps 2 to 6 on a cleaned grid: keep a narrow grid as it is, otherwise name the
      columns, keep the data rows and add the percentage. */
  function Reshape(g: Grid): (r: Result<Output, Error>)
    ensures |g.labels| < StandingsWidth ==> r == Success(Degraded(g))
    ensures r.Success? && r.value.Degraded? ==> |g.labels| < StandingsWidth
    ensures r == Failure(MissingRankColumn) <==>
      |g.labels| >= StandingsWidth && RankLabel !in g.labels
    ensures r == Failure(NonFinitePercentage) <==>
      && |g.labels| >= StandingsWidth && RankLabel in g.labels
      && exists i :: 0 <= i < |DataRows(g)| && PercentageFails(g.labels, DataRows(g)[i])
    ensures r.Success? && r.value.Mapped? ==>
      && RankLabel in g.labels
      && r.value.header == Header(g.labels)
      && |r.value.rows| == |DataRows(g)|
      && forall i :: 0 <= i < |r.value.rows| ==>
           !PercentageFails(g.labels, DataRows(g)[i])
           && r.value.rows[i] == OutputRow(g.labels, DataRows(g)[i])
  {
    if |g.labels| < StandingsWidth then Success(Degraded(g))
    else if RankLabel !in g.labels then Failure(MissingRankColumn)
    else
      var rows := DataRows(g);
      if exists i :: 0 <= i < |rows| && PercentageFails(g.labels, rows[i]) then
        Failure(NonFinitePercentage)
      else
        Success(Mapped(Header(g.labels),
          seq(|rows|, i requires 0 <= i < |rows| => OutputRow(g.labels, rows[i]))))
  }

  /** `clean_and_save_data` without writing the file: clean, then reshape. */
  function Normalise(t: Table): (r: Result<Output, Error>)
    ensures r.Failure? ==> |Clean(t).labels| >= StandingsWidth
    ensures r.Success? && r.value.Degraded? ==> r.value.grid == Clean(t)
  {
    Reshape(Clean(t))
  }

  // ---------------------------------------------------------------------------
  // Properties of the normaliser

  /** The output columns when all six labelled columns survive. */
  const StandingsHeader: seq<string> :=
    ["Class.", "Equipe", "Pts.", "Jou.", "Gagn.", "Perd.", "Pourcentage"]

  predicate HasAllFields(labels: seq<nat>)
  {
    forall c: nat :: c < |FieldNames| ==> c in labels
  }

  /** With all of the labels 0 to 5 present, all six are kept, in order. */
  lemma PresentAll(labels: seq<nat>)
    requires HasAllFields(labels)
    ensures Present(labels) == [0, 1, 2, 3, 4, 5]
  {
    IndicesWhereAll(InLabels(labels), 0, |FieldNames|);
  }

  /** With all of the labels 0 to 5 present, the header is the seven standings columns. */
  lemma FullHeader(labels: seq<nat>)
    requires HasAllFields(labels)
    ensures Present(labels) == [0, 1, 2, 3, 4, 5]
    ensures Header(labels) == StandingsHeader
  {
    PresentAll(labels);
  }

  /** One normalised standings row, as the seven output columns describe it. */
  datatype StandingsRow = StandingsRow(
    rank: int, team: Option<string>, points: int, played: int,
    wins: int, losses: int, percentage: string)

  /** The record of a data row of a table that has all six fields. */
  function Standing(labels: seq<nat>, row: Row): StandingsRow
    requires |row| == |labels| && HasAllFields(labels) && !PercentageFails(labels, row)
  {
    StandingsRow(
      Coerce(CellOf(labels, row, 0)), CellOf(labels, row, 1),
      Coerce(CellOf(labels, row, 2)), Coerce(CellOf(labels, row, 3)),
      Wins(labels, row), Losses(labels, row),
      FormatTenths(RoundedTenths(Wins(labels, row), Losses(labels, row)).value))
  }

  /** A record laid out in the order of `StandingsHeader`. */
  function Cells(r: StandingsRow): seq<Value>
  {
    [Num(r.rank), (match r.team case None => Blank case Some(s) => Str(s)),
     Num(r.points), Num(r.played), Num(r.wins), Num(r.losses), Str(r.percentage)]
  }

  /** With all six fields present, output cell `k` below 6 comes from the column
      labelled `k`. */
  lemma OutputRowField(labels: seq<nat>, row: Row, k: nat)
    requires |row| == |labels| && HasAllFields(labels) && !PercentageFails(labels, row)
    requires k < |FieldNames|
    ensures |OutputRow(labels, row)| == 7
    ensures OutputRow(labels, row)[k] == FieldValue(k, CellOf(labels, row, k))
  {
    FullHeader(labels);
    assert Present(labels)[k] == k;
  }

  /** With all six fields present, the last output cell is the percentage. */
  lemma OutputRowPercentage(labels: seq<nat>, row: Row)
    requires |row| == |labels| && HasAllFields(labels) && !PercentageFails(labels, row)
    ensures |OutputRow(labels, row)| == 7
    ensures OutputRow(labels, row)[6] ==
      Str(FormatTenths(RoundedTenths(Wins(labels, row), Losses(labels, row)).value))
  {
    FullHeader(labels);
  }

  /** Seven values that agree field by field with a record are its cells. */
  lemma CellsOfFields(out: seq<Value>, r: StandingsRow)
    requires |out| == 7
    requires out[0] == Num(r.rank) && out[1] == FieldValue(TeamLabel, r.team)
    requires out[2] == Num(r.points) && out[3] == Num(r.played)
    requires out[4] == Num(r.wins) && out[5] == Num(r.losses)
    requires out[6] == Str(r.percentage)
    ensures out == Cells(r)
  {
  }

  /** A data row of a table with all six fields becomes its standings record. */
  lemma OutputRowIsStanding(labels: seq<nat>, row: Row)
    requires |row| == |labels| && HasAllFields(labels) && !PercentageFails(labels, row)
    ensures OutputRow(labels, row) == Cells(Standing(labels, row))
  {
    OutputRowField(labels, row, 0);
    OutputRowField(labels, row, 1);
    OutputRowField(labels, row, 2);
    OutputRowField(labels, row, 3);
    OutputRowField(labels, row, 4);
    OutputRowField(labels, row, 5);
    OutputRowPercentage(labels, row);
    CellsOfFields(OutputRow(labels, row), Standing(labels, row));
  }

  /** Wins and losses add up to zero although wins do not: a division of a non-zero
      number by zero. */
  predicate ZeroGamesWithWins(labels: seq<nat>, row: Row)
    requires |row| == |labels| && HasPercentage(labels)
  {
    Wins(labels, row) + Losses(labels, row) == 0 && Wins(labels, row) != 0
  }

  /** A percentage fails exactly when the games add up to zero but the wins do not. */
  lemma PercentageFailsIff(labels: seq<nat>, row: Row)
    requires |row| == |labels| && HasPercentage(labels)
    ensures PercentageFails(labels, row) <==> ZeroGamesWithWins(labels, row)
  {
  }

  /** The standings layout on a cleaned grid: with at least 19 columns and the columns
      labelled 0 to 5 all present, the output has exactly the seven standings columns,
      one record per data row in the original order, each field taken from the original
      column with the same label and the percentage derived from wins and losses. */
  lemma ReshapeLayout(g: Grid)
    requires |g.labels| >= StandingsWidth && HasAllFields(g.labels)
    requires Reshape(g).Success?
    ensures Reshape(g).value.Mapped?
    ensures Reshape(g).value.header == StandingsHeader
    ensures |Reshape(g).value.rows| == |DataRows(g)|
    ensures forall i :: 0 <= i < |DataRows(g)| ==>
      Reshape(g).value.rows[i] == Cells(Standing(g.labels, DataRows(g)[i]))
  {
    var rows := DataRows(g);
    var out := Reshape(g).value;
    FullHeader(g.labels);
    forall i | 0 <= i < |rows| ensures out.rows[i] == Cells(Standing(g.labels, rows[i])) {
      OutputRowIsStanding(g.labels, rows[i]);
    }
  }

  /** The standings layout of a whole table, once cleaned. */
  lemma StandingsLayout(t: Table)
    requires |Clean(t).labels| >= StandingsWidth && HasAllFields(Clean(t).labels)
    requires Normalise(t).Success?
    ensures Normalise(t).value.Mapped?
    ensures Normalise(t).value.header == StandingsHeader
    ensures |Normalise(t).value.rows| == |DataRows(Clean(t))|
    ensures forall i :: 0 <= i < |DataRows(Clean(t))| ==>
      Normalise(t).value.rows[i] == Cells(Standing(Clean(t).labels, DataRows(Clean(t))[i]))
  {
    ReshapeLayout(Clean(t));
  }

  /** In the standings layout, reshaping fails only on a data row whose games add up to
      zero while its wins do not. */
  lemma ReshapeLayoutFailure(g: Grid)
    requires |g.labels| >= StandingsWidth && HasAllFields(g.labels)
    ensures Reshape(g).Failure? <==>
      exists i :: 0 <= i < |DataRows(g)| && ZeroGamesWithWins(g.labels, DataRows(g)[i])
  {
    var rows := DataRows(g);
    var r := Reshape(g);
    assert RankLabel in g.labels;
    assert r != Failure(MissingRankColumn);
    assert r.Failure? <==> r == Failure(NonFinitePercentage);
    forall i | 0 <= i < |rows|
      ensures PercentageFails(g.labels, rows[i]) <==> ZeroGamesWithWins(g.labels, rows[i])
    {
      PercentageFailsIff(g.labels, rows[i]);
    }
  }

  /** The failure condition of the standings layout for a whole table, once cleaned. */
  lemma StandingsLayoutFailure(t: Table)
    requires |Clean(t).labels| >= StandingsWidth && HasAllFields(Clean(t).labels)
    ensures Normalise(t).Failure? <==>
      exists i :: 0 <= i < |DataRows(Clean(t))| && ZeroGamesWithWins(Clean(t).labels, DataRows(Clean(t))[i])
  {
    ReshapeLayoutFailure(Clean(t));
  }

  /** The values in an increasing sequence of naturals are at least their positions. */
  lemma {:induction false} IncreasingAtLeastIndex(s: seq<nat>, k: nat)
    requires Increasing(s) && k < |s|
    ensures s[k] >= k
  {
    if k > 0 {
      IncreasingAtLeastIndex(s, k - 1);
    }
  }

  /** A table narrower than the standings layout is returned as cleaned. In particular a
      normalised seven-column output, read back as a table, is not mapped a second time. */
  lemma NarrowTableDegraded(t: Table)
    requires t.width < StandingsWidth
    ensures Normalise(t) == Success(Degraded(Clean(t)))
  {
    var g := Clean(t);
    if |g.labels| > t.width {
      IncreasingAtLeastIndex(g.labels, t.width);
    }
  }

  /** Which rank cells mark a row as a repeated header: the regex dot makes `Pts` with
      nothing after it a data value, and `Classement` a header. */
  lemma HeaderTextExamples()
    ensures IsHeaderText("Class.") && IsHeaderText("Pts.") && IsHeaderText("Classement")
    ensures IsHeaderText("PTS:") && !IsHeaderText("Pts") && !IsHeaderText("12")
  {
    assert DottedAt(Lower("Class."), 0, "class");
    assert DottedAt(Lower("Pts."), 0, "pts");
    assert DottedAt(Lower("Classement"), 0, "class");
    assert DottedAt(Lower("PTS:"), 0, "pts");
  }
}

=== FILE: percentage.dfy ===
/** The derived win percentage: wins over wins plus losses, rounded to one decimal and
    written the French way (volley_scraper_final.py:169-186). The value is kept exactly,
    as an integer number of tenths of a percent. */
module Percentage {
  import opened Wrappers
  import opened Text

  function Abs(x: int): nat
  {
    if x < 0 then -x else x
  }

  /** The integer nearest to `n / d`, reached by flooring `n / d + 1/2`. */
  function NearestQuotient(n: int, d: int): (q: int)
    requires d > 0
    ensures 2 * Abs(n - q * d) <= d
  {
    var q := (2 * n + d) / (2 * d);
    var rem := (2 * n + d) % (2 * d);
    assert 2 * n + d == q * (2 * d) + rem;
    assert 2 * (n - q * d) == rem - d;
    q
  }

  /** `round(wins / (wins + losses) * 100, 1)` in tenths of a percent.
      - No games at all (`0 / 0`, a NaN that `fillna(0)` replaces) gives 0.
      - A non-zero numerator over a zero total is an infinity that survives `fillna`;
        formatting it raises, so it is `None` here.
      - Otherwise the result is the nearest integer to `1000 * wins / total`; which way an
        exact half rounds is left open. */
  function RoundedTenths(wins: int, losses: int): (t: Option<int>)
    ensures wins + losses == 0 ==> (t.Some? <==> wins == 0)
    ensures wins + losses == 0 && t.Some? ==> t.value == 0
    ensures wins + losses != 0 ==>
      t.Some? && 2 * Abs(1000 * wins - t.value * (wins + losses)) <= Abs(wins + losses)
  {
    var total := wins + losses;
    if total == 0 then (if wins == 0 then Some(0) else None)
    else if total > 0 then Some(NearestQuotient(1000 * wins, total))
    else
      var q := NearestQuotient(-1000 * wins, -total);
      assert 1000 * wins - q * total == -(-1000 * wins - q * -total);
      Some(q)
  }

  /** With non-negative wins and losses and at least one game, the percentage lies
      between 0 and 100. */
  lemma PercentageInRange(wins: int, losses: int)
    requires wins >= 0 && losses >= 0 && wins + losses > 0
    ensures RoundedTenths(wins, losses).Some?
    ensures 0 <= RoundedTenths(wins, losses).value <= 1000
  {
    var d := wins + losses;
    var t := RoundedTenths(wins, losses).value;
    MulMono(wins, d, 1000);
    NearestInRange(1000 * wins, d, t, 1000);
  }

  /** The nearest integer to `n / d`, for `0 <= n <= hi * d`, lies between 0 and `hi`. */
  lemma NearestInRange(n: int, d: int, t: int, hi: nat)
    requires d > 0 && 0 <= n <= hi * d
    requires 2 * Abs(n - t * d) <= d
    ensures 0 <= t <= hi
  {
    assert 2 * (n - t * d) <= d && 2 * (t * d - n) <= d;
    assert -1 * d < t * d;
    MulCancel(-1, t, d);
    assert (hi + 1) * d == hi * d + d;
    assert t * d < (hi + 1) * d;
    MulCancel(t, hi + 1, d);
  }

  /** Multiplying by a positive number preserves strict order, so it can be cancelled. */
  lemma MulCancel(a: int, b: int, d: int)
    requires d > 0 && a * d < b * d
    ensures a < b
  {
    if b <= a {
      MulMono(b, a, d);
    }
  }

  lemma MulMono(a: int, b: int, d: nat)
    requires a <= b
    ensures a * d <= b * d
  {
    assert b * d - a * d == (b - a) * d;
  }

  /** The digits of a non-negative number of tenths followed by " %": `",d"` is written
      only when the tenths digit `d` is not 0, and the whole part has no leading zero. */
  function FormatMagnitude(u: nat): (s: string)
    ensures EndsWith(s, " %") && |s| >= 3 && IsDigit(s[0])
    ensures s[0] == '0' ==> !IsDigit(s[1])
    ensures forall i :: 0 <= i < |s| ==> s[i] != '.' && s[i] != '-'
    ensures (exists i :: 0 <= i < |s| && s[i] == ',') <==> u % 10 != 0
  {
    var digits := NatToString(u / 10);
    var s := digits + (if u % 10 == 0 then "" else [',', DigitChar(u % 10)]) + " %";
    assert s[0] == digits[0];
    assert forall i :: 0 <= i < |digits| ==> s[i] == digits[i];
    assert |digits| == 1 ==> !IsDigit(s[1]);
    assert u % 10 != 0 ==> s[|digits|] == ',';
    assert u % 10 == 0 ==> s == digits + " %";
    s
  }

  /** `format_percentage` applied to `t / 10`. */
  function FormatTenths(t: int): (s: string)
    ensures EndsWith(s, " %")
    ensures forall i :: 0 <= i < |s| ==> s[i] != '.'
    ensures (exists i :: 0 <= i < |s| && s[i] == ',') <==> t % 10 != 0
    ensures (t < 0) <==> s[0] == '-'
    ensures var k := if t < 0 then 1 else 0;
      |s| >= k + 3 && IsDigit(s[k]) && (s[k] == '0' ==> !IsDigit(s[k + 1]))
  {
    var u := Abs(t);
    var m := FormatMagnitude(u);
    assert u % 10 == 0 <==> t % 10 == 0;
    var s := if t < 0 then "-" + m else m;
    assert t < 0 ==> s[1..] == m && s[0] == '-';
    s
  }

  /** The 'Pourcentage' cell for one row; `None` where the source raises. */
  function WinPercentage(wins: int, losses: int): (r: Option<string>)
    ensures r.Some? <==> RoundedTenths(wins, losses).Some?
  {
    match RoundedTenths(wins, losses)
    case None => None
    case Some(t) => Some(FormatTenths(t))
  }

  // ---------------------------------------------------------------------------
  // Reading a percentage back

  /** Digits with an optional `,d` tail, as tenths. */
  function ParseMagnitude(b: string): Option<nat>
  {
    if |b| >= 2 && b[|b| - 2] == ',' && IsDigit(b[|b| - 1]) then
      match ParseNat(b[..|b| - 2])
      case None => None
      case Some(n) => Some(n * 10 + DigitValue(b[|b| - 1]))
    else
      match ParseNat(b)
      case None => None
      case Some(n) => Some(n * 10)
  }

  /** The inverse of `FormatTenths`. */
  function ParsePercentage(s: string): Option<int>
  {
    if !EndsWith(s, " %") then None
    else
      var body := s[..|s| - 2];
      if |body| >= 1 && body[0] == '-' then
        match ParseMagnitude(body[1..])
        case None => None
        case Some(u) => Some(-(u as int))
      else
        match ParseMagnitude(body)
        case None => None
        case Some(u) => Some(u)
  }

  lemma {:induction false} MagnitudeRoundTrip(u: nat)
    ensures ParseMagnitude(FormatMagnitude(u)[..|FormatMagnitude(u)| - 2]) == Some(u)
  {
    var digits := NatToString(u / 10);
    var b := FormatMagnitude(u)[..|FormatMagnitude(u)| - 2];
    NatRoundTrip(u / 10);
    if u % 10 == 0 {
      assert b == digits;
      if |b| >= 2 {
        assert IsDigit(b[|b| - 2]);
      }
    } else {
      assert b == digits + [',', DigitChar(u % 10)];
      assert b[..|b| - 2] == digits;
    }
  }

  /** The formatted percentage determines the rounded value: nothing is lost by writing
      it with a comma and dropping a zero tenths digit. */
  lemma FormatRoundTrip(t: int)
    ensures ParsePercentage(FormatTenths(t)) == Some(t)
  {
    var u := Abs(t);
    var m := FormatMagnitude(u);
    MagnitudeRoundTrip(u);
    var s := FormatTenths(t);
    if t < 0 {
      assert s[..|s| - 2][1..] == m[..|m| - 2];
    } else {
      assert s[..|s| - 2] == m[..|m| - 2];
      assert IsDigit(NatToString(u / 10)[0]);
      assert s[0] == NatToString(u / 10)[0];
    }
  }

  /** The whole-number part of a percentage text, after an optional `-`, has no
      superfluous leading zero. */
  predicate NoLeadingZero(s: string)
  {
    var k := if |s| >= 1 && s[0] == '-' then 1 else 0;
    |s| >= k + 2 && (s[k] == '0' ==> !IsDigit(s[k + 1]))
  }

  /** Digits with an optional `,d` tail are the formatted magnitude they read back to,
      provided the whole part has no leading zero and a comma means a non-zero tenths
      digit. */
  lemma MagnitudeUnique(b: string, u: nat)
    requires ParseMagnitude(b) == Some(u)
    requires |b| >= 2 && b[0] == '0' ==> !IsDigit(b[1])
    requires (exists i :: 0 <= i < |b| && b[i] == ',') ==> u % 10 != 0
    ensures b + " %" == FormatMagnitude(u)
  {
    if |b| >= 2 && b[|b| - 2] == ',' && IsDigit(b[|b| - 1]) {
      var p := b[..|b| - 2];
      var c := b[|b| - 1];
      var n := ParseNat(p).value;
      assert u == n * 10 + DigitValue(c);
      assert u / 10 == n && u % 10 == DigitValue(c);
      if |p| > 1 {
        assert p[0] == b[0] && p[1] == b[1];
      }
      CanonicalIsRendering(p);
      assert DigitChar(DigitValue(c)) == c;
      assert b == p + [',', c];
    } else {
      var n := ParseNat(b).value;
      assert u / 10 == n && u % 10 == 0;
      CanonicalIsRendering(b);
    }
  }

  /** The converse of `FormatRoundTrip`: a text that reads back to `t`, carries the sign
      of `t`, has a comma only for a non-zero tenths digit and no leading zero is exactly
      `FormatTenths(t)`. So the contract of `FormatTenths` fixes the text completely. */
  lemma FormatUnique(s: string, t: int)
    requires ParsePercentage(s) == Some(t)
    requires |s| >= 1 && ((t < 0) <==> s[0] == '-')
    requires (exists i :: 0 <= i < |s| && s[i] == ',') <==> t % 10 != 0
    requires NoLeadingZero(s)
    ensures s == FormatTenths(t)
  {
    var k := if t < 0 then 1 else 0;
    var body := s[..|s| - 2];
    var b := body[k..];
    var u := Abs(t);
    assert u % 10 == 0 <==> t % 10 == 0;
    assert ParseMagnitude(b) == Some(u);
    if |b| >= 2 {
      assert b[0] == s[k] && b[1] == s[k + 1];
    }
    if exists i :: 0 <= i < |b| && b[i] == ',' {
      var i :| 0 <= i < |b| && b[i] == ',';
      assert s[i + k] == ',';
    }
    MagnitudeUnique(b, u);
    assert s == body + " %";
    if t < 0 {
      assert s == "-" + (b + " %");
    } else {
      assert s == b + " %";
    }
  }

  /** Two wins and one loss: 66.67 rounds to 66.7, written with a comma. */
  lemma ExampleTwoOfThree()
    ensures WinPercentage(2, 1) == Some("66,7 %")
  {
    assert RoundedTenths(2, 1) == Some(667);
    assert NatToString(66) == "66";
    assert FormatMagnitude(667) == "66,7 %";
  }

  /** One win and one loss: a whole number is written without decimals. */
  lemma ExampleEven()
    ensures WinPercentage(1, 1) == Some("50 %")
  {
    assert RoundedTenths(1, 1) == Some(500);
    assert NatToString(50) == "50";
    assert FormatMagnitude(500) == "50 %";
  }

  /** No games played: the percentage is 0. */
  lemma ExampleNoGames()
    ensures WinPercentage(0, 0) == Some("0 %")
  {
    assert NatToString(0) == "0";
    assert FormatMagnitude(0) == "0 %";
  }

  /** Unbeaten: 100 without decimals. */
  lemma ExampleUnbeaten()
    ensures WinPercentage(1, 0) == Some("100 %")
  {
    assert RoundedTenths(1, 0) == Some(1000);
    assert NatToString(100) == "100";
    assert FormatMagnitude(1000) == "100 %";
  }

  /** Wins over a zero total: the source raises, so there is no value. */
  lemma ExampleInfinite()
    ensures WinPercentage(3, -3) == None
  {
  }
}

=== FILE: seqs.dfy ===
/** Generic sequence helpers: filtering and lookup. */
module Seqs {

  /** The elements of `s` that satisfy `p`, in their original order. */
  function Filter<T>(p: T -> bool, s: seq<T>): (r: seq<T>)
    ensures |r| <= |s|
    ensures forall i :: 0 <= i < |r| ==> r[i] in s && p(r[i])
    ensures forall i :: 0 <= i < |s| && p(s[i]) ==> s[i] in r
  {
    if |s| == 0 then []
    else (if p(s[0]) then [s[0]] else []) + Filter(p, s[1..])
  }

  /** Filtering distributes over concatenation, so relative order is kept. */
  lemma {:induction false} FilterAppend<T>(p: T -> bool, a: seq<T>, b: seq<T>)
    ensures Filter(p, a + b) == Filter(p, a) + Filter(p, b)
  {
    if |a| == 0 {
      assert a + b == b;
    } else {
      assert (a + b)[1..] == a[1..] + b;
      FilterAppend(p, a[1..], b);
    }
  }

  /** Filtering a sequence whose every element passes changes nothing. */
  lemma {:induction false} FilterKeepsAll<T>(p: T -> bool, s: seq<T>)
    requires forall i :: 0 <= i < |s| ==> p(s[i])
    ensures Filter(p, s) == s
  {
    if |s| > 0 {
      FilterKeepsAll(p, s[1..]);
    }
  }

  /** The position of the first occurrence of `x` in `s`. */
  function IndexOf<T(==)>(s: seq<T>, x: T): (i: nat)
    requires x in s
    ensures i < |s| && s[i] == x
    ensures forall j :: 0 <= j < i ==> s[j] != x
  {
    if s[0] == x then 0 else 1 + IndexOf(s[1..], x)
  }

  /** `s` is strictly increasing. */
  predicate Increasing(s: seq<nat>)
  {
    forall i, j :: 0 <= i < j < |s| ==> s[i] < s[j]
  }

  /** The numbers `from <= k < to` for which `p` holds, ascending. */
  function IndicesWhere(p: nat -> bool, from: nat, to: nat): (r: seq<nat>)
    requires from <= to
    decreases (to as int) - (from as int)
    ensures Increasing(r)
    ensures forall k :: 0 <= k < |r| ==> from <= r[k] < to
    ensures forall c: nat :: c in r <==> from <= c < to && p(c)
  {
    if from == to then []
    else if p(from) then [from] + IndicesWhere(p, from + 1, to)
    else IndicesWhere(p, from + 1, to)
  }

  /** When `p` holds throughout, every index is kept. */
  lemma {:induction false} IndicesWhereAll(p: nat -> bool, from: nat, to: nat)
    requires from <= to
    requires forall c: nat :: from <= c < to ==> p(c)
    ensures |IndicesWhere(p, from, to)| == to - from
    ensures forall k :: 0 <= k < to - from ==> IndicesWhere(p, from, to)[k] == from + k
    decreases (to as int) - (from as int)
  {
    if from < to {
      IndicesWhereAll(p, from + 1, to);
      var rest := IndicesWhere(p, from + 1, to);
      assert IndicesWhere(p, from, to) == [from] + rest;
    }
  }
}

=== FILE: signatures.dfy ===
/** The volleyball signature patterns the classifier looks for in a table's text, written
    as explicit string predicates instead of regular expressions
    (volley_scraper_final.py:105-116). */
module Signatures {
  import opened Text

  /** One signature pattern.
      - DateLike: `\d{2}[/\-]\d{2}`
      - ScoreLike: `\d+\s*-\s*\d+`
      - Literal(text): the pattern is a plain word such as `set`
      - Dotted(stem): the stem followed by `.`, which outside DOTALL mode is any
        character except a newline, as in `Pts.` */
  datatype Pattern = DateLike | ScoreLike | Literal(text: string) | Dotted(stem: string)

  /** The eight patterns, in source order. */
  const Patterns: seq<Pattern> := [
    DateLike, Literal("vs"), ScoreLike, Literal("set"),
    Literal("equipe"), Literal("match"), Dotted("Pts"), Literal("volley")
  ]

  // ---------------------------------------------------------------------------
  // Where a pattern matches

  predicate DateAt(s: string, i: nat)
    requires i + 5 <= |s|
  {
    && IsDigit(s[i]) && IsDigit(s[i + 1])
    && (s[i + 2] == '/' || s[i + 2] == '-')
    && IsDigit(s[i + 3]) && IsDigit(s[i + 4])
  }

  predicate LiteralAt(s: string, i: nat, lit: string)
  {
    i + |lit| <= |s| && s[i..i + |lit|] == lit
  }

  predicate DottedAt(s: string, i: nat, stem: string)
  {
    i + |stem| < |s| && s[i..i + |stem|] == stem && s[i + |stem|] != '\n'
  }

  /** Every character of `s[a..b]` is whitespace. */
  predicate Spaces(s: string, a: nat, b: nat)
    requires a <= b <= |s|
  {
    forall m :: a <= m < b ==> IsSpace(s[m])
  }

  /** A digit at `i`, whitespace, `-` at `j`, whitespace, a digit at `k`. A run of
      digits on either side adds nothing: its digit next to the dash already matches. */
  predicate ScoreAt(s: string, i: nat, j: nat, k: nat)
  {
    && i < j < k < |s|
    && IsDigit(s[i]) && Spaces(s, i + 1, j) && s[j] == '-'
    && Spaces(s, j + 1, k) && IsDigit(s[k])
  }

  // ---------------------------------------------------------------------------
  // Searching, left to right

  function SearchDate(s: string, from: nat): (r: bool)
    decreases |s| - from
    ensures r <==> exists i :: from <= i && i + 5 <= |s| && DateAt(s, i)
  {
    if from + 5 > |s| then false
    else DateAt(s, from) || SearchDate(s, from + 1)
  }

  function SearchLiteral(s: string, lit: string, from: nat): (r: bool)
    decreases |s| - from
    ensures r <==> exists i :: from <= i && LiteralAt(s, i, lit)
  {
    if from + |lit| > |s| then false
    else LiteralAt(s, from, lit) || SearchLiteral(s, lit, from + 1)
  }

  function SearchDotted(s: string, stem: string, from: nat): (r: bool)
    decreases |s| - from
    ensures r <==> exists i :: from <= i && DottedAt(s, i, stem)
  {
    if from + |stem| >= |s| then false
    else DottedAt(s, from, stem) || SearchDotted(s, stem, from + 1)
  }

  /** The first position at or after `p` that does not hold whitespace, or `|s|`. */
  function SkipSpaces(s: string, p: nat): (q: nat)
    requires p <= |s|
    decreases |s| - p
    ensures p <= q <= |s| && Spaces(s, p, q)
    ensures q == |s| || !IsSpace(s[q])
  {
    if p < |s| && IsSpace(s[p]) then SkipSpaces(s, p + 1) else p
  }

  /** Whether a score match starts with the digit at `i`, found by skipping whitespace
      greedily on both sides of the dash. */
  function ScoreFrom(s: string, i: nat): (r: bool)
    requires i < |s|
    ensures r <==> exists j, k :: ScoreAt(s, i, j, k)
  {
    var j := SkipSpaces(s, i + 1);
    if IsDigit(s[i]) && j < |s| && s[j] == '-' then
      var k := SkipSpaces(s, j + 1);
      assert forall j', k' :: ScoreAt(s, i, j', k') ==> j' == j && k' == k by {
        forall j', k' | ScoreAt(s, i, j', k')
          ensures j' == j && k' == k
        {
          SkipSpacesStops(s, i + 1, j');
          SkipSpacesStops(s, j + 1, k');
        }
      }
      if k < |s| && IsDigit(s[k]) then
        assert ScoreAt(s, i, j, k);
        true
      else
        false
    else
      assert forall j', k' :: !ScoreAt(s, i, j', k') by {
        forall j', k' | ScoreAt(s, i, j', k')
          ensures false
        {
          SkipSpacesStops(s, i + 1, j');
        }
      }
      false
  }

  /** Skipping whitespace stops exactly at a non-whitespace character that only
      whitespace precedes. */
  lemma SkipSpacesStops(s: string, p: nat, q: nat)
    requires p <= q < |s| && Spaces(s, p, q) && !IsSpace(s[q])
    ensures SkipSpaces(s, p) == q
  {
  }

  function SearchScore(s: string, from: nat): (r: bool)
    decreases |s| - from
    ensures r <==> exists i, j, k :: from <= i && ScoreAt(s, i, j, k)
  {
    if from >= |s| then false
    else ScoreFrom(s, from) || SearchScore(s, from + 1)
  }

  // ---------------------------------------------------------------------------
  // Scoring

  /** `re.search(pattern, text)` found a match. */
  function Matches(p: Pattern, text: string): (r: bool)
    ensures p.DateLike? ==> (r <==> exists i: nat :: i + 5 <= |text| && DateAt(text, i))
    ensures p.ScoreLike? ==> (r <==> exists i, j, k :: ScoreAt(text, i, j, k))
    ensures p.Literal? ==> (r <==> exists i: nat :: LiteralAt(text, i, p.text))
    ensures p.Dotted? ==> (r <==> exists i: nat :: DottedAt(text, i, p.stem))
  {
    match p
    case DateLike => SearchDate(text, 0)
    case ScoreLike => SearchScore(text, 0)
    case Literal(lit) => SearchLiteral(text, lit, 0)
    case Dotted(stem) => SearchDotted(text, stem, 0)
  }

  /** How many of `ps` match `text`; each pattern adds at most one. */
  function CountMatches(ps: seq<Pattern>, text: string): (n: nat)
    ensures n <= |ps|
  {
    if |ps| == 0 then 0
    else (if Matches(ps[0], text) then 1 else 0) + CountMatches(ps[1..], text)
  }

  /** The score of a table: how many signature patterns occur in its lower-cased text. */
  function Score(blob: string): (n: nat)
    ensures n <= |Patterns| - 1
    ensures !Matches(Dotted("Pts"), Lower(blob))
  {
    PtsNeverMatchesLowered(blob);
    CountWithout(Patterns, 6, Lower(blob));
    CountMatches(Patterns, Lower(blob))
  }

  /** A pattern that is known not to match leaves the count at most `|ps| - 1`. */
  lemma {:induction false} CountWithout(ps: seq<Pattern>, m: nat, text: string)
    requires m < |ps| && !Matches(ps[m], text)
    ensures CountMatches(ps, text) <= |ps| - 1
  {
    if m > 0 {
      CountWithout(ps[1..], m - 1, text);
    }
  }

  /** The `Pts.` signature starts with an upper-case `P`, so it never occurs in a
      lower-cased text: its contribution to the score is always zero. */
  lemma PtsNeverMatchesLowered(blob: string)
    ensures !Matches(Dotted("Pts"), Lower(blob))
  {
    var text := Lower(blob);
    forall i: nat | i + 3 < |text|
      ensures !DottedAt(text, i, "Pts")
    {
      assert text[i..i + 3][0] == text[i];
    }
  }

  /** A count of at least two means two different patterns matched, and conversely. */
  lemma {:induction false} CountAtLeastTwo(ps: seq<Pattern>, text: string)
    ensures CountMatches(ps, text) >= 2 <==>
      exists i, j :: 0 <= i < j < |ps| && Matches(ps[i], text) && Matches(ps[j], text)
  {
    if |ps| > 0 {
      CountAtLeastTwo(ps[1..], text);
      CountAtLeastOne(ps[1..], text);
      if CountMatches(ps, text) >= 2 {
        if Matches(ps[0], text) {
          var j :| 0 <= j < |ps| - 1 && Matches(ps[1..][j], text);
          assert Matches(ps[j + 1], text);
        } else {
          var i, j :| 0 <= i < j < |ps| - 1 && Matches(ps[1..][i], text) && Matches(ps[1..][j], text);
          assert Matches(ps[i + 1], text) && Matches(ps[j + 1], text);
        }
      }
    }
  }

  /** A positive count means some pattern matched, and conversely. */
  lemma {:induction false} CountAtLeastOne(ps: seq<Pattern>, text: string)
    ensures CountMatches(ps, text) >= 1 <==> exists j :: 0 <= j < |ps| && Matches(ps[j], text)
  {
    if |ps| > 0 {
      CountAtLeastOne(ps[1..], text);
      if exists j :: 0 <= j < |ps| && Matches(ps[j], text) {
        var j :| 0 <= j < |ps| && Matches(ps[j], text);
        if j > 0 {
          assert Matches(ps[1..][j - 1], text);
        }
      }
    }
  }
}

=== FILE: text.dfy ===
/** Character classes, case folding, trimming and decimal integers as the scraper's
    Python string operations see them. */
module Text {
  import opened Wrappers

  /** An ASCII decimal digit, the model of the regex class `\d`. */
  predicate IsDigit(c: char)
  {
    '0' <= c <= '9'
  }

  predicate IsAsciiLetter(c: char)
  {
    'a' <= c <= 'z' || 'A' <= c <= 'Z'
  }

  /** The model of `str.isalnum`, restricted to ASCII letters and digits. */
  predicate IsAlnum(c: char)
  {
    IsAsciiLetter(c) || IsDigit(c)
  }

  /** Exactly the characters for which Python's `str.isspace` holds; the same set is
      what `str.strip` removes and what the regex class `\s` matches. */
  predicate IsSpace(c: char)
  {
    || '\t' <= c <= '\r'
    || '\U{1C}' <= c <= ' '
    || c == '\U{85}' || c == '\U{A0}' || c == '\U{1680}'
    || '\U{2000}' <= c <= '\U{200A}'
    || c == '\U{2028}' || c == '\U{2029}' || c == '\U{202F}' || c == '\U{205F}'
    || c == '\U{3000}'
  }

  predicate IsUpper(c: char)
  {
    'A' <= c <= 'Z'
  }

  /** `str.lower` on one character, restricted to ASCII. */
  function LowerChar(c: char): (r: char)
    ensures !IsUpper(r)
    ensures IsUpper(c) ==> IsAsciiLetter(r) && r != c
    ensures !IsUpper(c) ==> r == c
  {
    if IsUpper(c) then (c as int + 32) as char else c
  }

  /** `str.lower`, character by character. */
  function Lower(s: string): (r: string)
    ensures |r| == |s|
    ensures forall i :: 0 <= i < |s| ==> r[i] == LowerChar(s[i])
  {
    seq(|s|, i requires 0 <= i < |s| => LowerChar(s[i]))
  }

  predicate StartsWith(s: string, prefix: string)
  {
    |prefix| <= |s| && s[..|prefix|] == prefix
  }

  predicate EndsWith(s: string, suffix: string)
  {
    |suffix| <= |s| && s[|s| - |suffix|..] == suffix
  }

  /** The end of `s[..q]` once its trailing whitespace is dropped. */
  function TrimmedEnd(s: string, q: nat): (e: nat)
    requires q <= |s|
    ensures e <= q
    ensures e == 0 || !IsSpace(s[e - 1])
    ensures forall k :: e <= k < q ==> IsSpace(s[k])
  {
    if q > 0 && IsSpace(s[q - 1]) then TrimmedEnd(s, q - 1) else q
  }

  /** The start of `s` once its leading whitespace is dropped. */
  function TrimmedStart(s: string, p: nat): (b: nat)
    requires p <= |s|
    decreases |s| - p
    ensures p <= b <= |s|
    ensures b == |s| || !IsSpace(s[b])
    ensures forall k :: p <= k < b ==> IsSpace(s[k])
  {
    if p < |s| && IsSpace(s[p]) then TrimmedStart(s, p + 1) else p
  }

  /** `str.rstrip()` with no argument: drop trailing whitespace. */
  function TrimEnd(s: string): (r: string)
    ensures |r| <= |s| && r == s[..|r|]
    ensures |r| == 0 || !IsSpace(r[|r| - 1])
    ensures forall k :: |r| <= k < |s| ==> IsSpace(s[k])
  {
    s[..TrimmedEnd(s, |s|)]
  }

  /** Below the end of `s`, appending `t` does not move where the trimmed end lies. */
  lemma {:induction false} TrimmedEndAppend(s: string, t: string, q: nat)
    requires q <= |s|
    ensures TrimmedEnd(s + t, q) == TrimmedEnd(s, q)
  {
    if q > 0 {
      assert (s + t)[q - 1] == s[q - 1];
      TrimmedEndAppend(s, t, q - 1);
    }
  }

  /** When `t[..q]` holds a non-whitespace character, trimming `s + t` from `|s| + q`
      stops inside `t`, where trimming `t` alone from `q` stops. */
  lemma {:induction false} TrimmedEndShift(s: string, t: string, q: nat)
    requires q <= |t|
    requires TrimmedEnd(t, q) > 0
    ensures TrimmedEnd(s + t, |s| + q) == |s| + TrimmedEnd(t, q)
  {
    assert (s + t)[|s| + q - 1] == t[q - 1];
    if IsSpace(t[q - 1]) {
      TrimmedEndShift(s, t, q - 1);
    }
  }

  /** Trimming the end of `s + t` leaves `s` alone when `t` holds a non-whitespace
      character. */
  lemma TrimEndKeepsPrefix(s: string, t: string)
    requires TrimmedEnd(t, |t|) > 0
    ensures TrimEnd(s + t) == s + TrimEnd(t)
  {
    TrimEndShift(s, t);
    PrefixOfAppend(s, t, TrimmedEnd(t, |t|));
  }

  /** `TrimmedEndShift` from the end of `s + t`, as a statement about `TrimEnd`. */
  lemma TrimEndShift(s: string, t: string)
    requires TrimmedEnd(t, |t|) > 0
    ensures TrimEnd(s + t) == (s + t)[..|s| + TrimmedEnd(t, |t|)]
  {
    var st := s + t;
    assert |st| == |s| + |t|;
    TrimmedEndShift(s, t, |t|);
    assert TrimmedEnd(st, |st|) == |s| + TrimmedEnd(t, |t|);
  }

  /** A string that does not end in whitespace is its own `rstrip`. */
  lemma TrimEndNoTrailingSpace(s: string)
    requires |s| == 0 || !IsSpace(s[|s| - 1])
    ensures TrimEnd(s) == s
  {
    assert TrimmedEnd(s, |s|) == |s|;
  }

  /** A prefix of `s + t` that reaches into `t`. */
  lemma PrefixOfAppend(s: string, t: string, e: nat)
    requires e <= |t|
    ensures (s + t)[..|s| + e] == s + t[..e]
  {
  }

  /** Trimming the end sees through the whitespace that fills `s[q..]`. */
  lemma {:induction false} TrimmedEndOverSpaces(s: string, q: nat)
    requires q <= |s|
    requires forall k :: q <= k < |s| ==> IsSpace(s[k])
    ensures TrimmedEnd(s, |s|) == TrimmedEnd(s, q)
    decreases |s| - q
  {
    if q < |s| {
      TrimmedEndOverSpaces(s, q + 1);
    }
  }

  /** Whitespace appended to a string is exactly what `rstrip` removes again. */
  lemma TrimEndAppendSpaces(s: string, t: string)
    requires forall k :: 0 <= k < |t| ==> IsSpace(t[k])
    ensures TrimEnd(s + t) == TrimEnd(s)
  {
    var st := s + t;
    assert forall k :: |s| <= k < |st| ==> IsSpace(st[k]) by {
      forall k | |s| <= k < |st| ensures IsSpace(st[k]) {
        assert st[k] == t[k - |s|];
      }
    }
    TrimmedEndOverSpaces(st, |s|);
    TrimmedEndAppend(s, t, |s|);
    assert st[..TrimmedEnd(s, |s|)] == s[..TrimmedEnd(s, |s|)];
  }

  /** Cutting `s` at `e` does not move the first non-whitespace position found before
      the cut. */
  lemma {:induction false} TrimmedStartPrefix(s: string, e: nat, p: nat)
    requires p <= e <= |s|
    ensures TrimmedStart(s[..e], p) < e ==> TrimmedStart(s, p) == TrimmedStart(s[..e], p)
    decreases e - p
  {
    if p < e {
      assert s[..e][p] == s[p];
      TrimmedStartPrefix(s, e, p + 1);
    }
  }

  /** `str.lstrip()` with no argument: drop leading whitespace. */
  function TrimStart(s: string): (r: string)
    ensures |r| <= |s| && r == s[|s| - |r|..]
    ensures |r| == 0 || !IsSpace(r[0])
    ensures forall k :: 0 <= k < |s| - |r| ==> IsSpace(s[k])
  {
    s[TrimmedStart(s, 0)..]
  }

  /** `str.strip()` with no argument. */
  function Strip(s: string): (r: string)
    ensures |r| <= |s|
    ensures |r| == 0 || (!IsSpace(r[0]) && !IsSpace(r[|r| - 1]))
  {
    TrimStart(TrimEnd(s))
  }

  /** Stripping is the identity on a string with no surrounding whitespace. */
  lemma {:induction false} StripUnchanged(s: string)
    requires |s| == 0 || (!IsSpace(s[0]) && !IsSpace(s[|s| - 1]))
    ensures Strip(s) == s
  {
    assert TrimEnd(s) == s;
  }

  /** Stripping twice is stripping once. */
  lemma StripIdempotent(s: string)
    ensures Strip(Strip(s)) == Strip(s)
  {
    StripUnchanged(Strip(s));
  }

  // ---------------------------------------------------------------------------
  // Decimal integers

  function DigitValue(c: char): (d: nat)
    requires IsDigit(c)
    ensures d < 10
  {
    c as int - '0' as int
  }

  function DigitChar(d: nat): (c: char)
    requires d < 10
    ensures IsDigit(c) && DigitValue(c) == d
  {
    ('0' as int + d) as char
  }

  predicate AllDigits(s: string)
  {
    forall i :: 0 <= i < |s| ==> IsDigit(s[i])
  }

  /** The value of a string of decimal digits, most significant first. */
  function DigitsValue(s: string): nat
    requires AllDigits(s)
  {
    if |s| == 0 then 0 else DigitsValue(s[..|s| - 1]) * 10 + DigitValue(s[|s| - 1])
  }

  /** The shortest decimal rendering of a natural number, as `str(n)` writes it. */
  function NatToString(n: nat): (r: string)
    ensures |r| >= 1 && AllDigits(r)
    ensures |r| > 1 ==> r[0] != '0'
  {
    if n < 10 then [DigitChar(n)] else NatToString(n / 10) + [DigitChar(n % 10)]
  }

  /** `str(i)` for an integer: a minus sign precedes the magnitude of a negative value. */
  function IntToString(i: int): (r: string)
    ensures |r| >= 1
    ensures i < 0 <==> r[0] == '-'
  {
    if i < 0 then "-" + NatToString(-i) else NatToString(i)
  }

  /** A non-empty run of digits, read as a natural number. */
  function ParseNat(s: string): (r: Option<nat>)
    ensures r.Some? <==> |s| >= 1 && AllDigits(s)
  {
    if |s| >= 1 && AllDigits(s) then Some(DigitsValue(s)) else None
  }

  /** An optional sign followed by at least one digit. */
  predicate IsIntLiteral(s: string)
  {
    if |s| >= 1 && (s[0] == '-' || s[0] == '+') then |s| >= 2 && AllDigits(s[1..])
    else |s| >= 1 && AllDigits(s)
  }

  /** Integer text as a numeric coercion accepts it: an optional `+` or `-` and digits. */
  function ParseInt(s: string): (r: Option<int>)
    ensures r.Some? <==> IsIntLiteral(s)
    ensures r.Some? && |s| >= 1 && s[0] == '-' ==> r.value <= 0
    ensures r.Some? && |s| >= 1 && s[0] != '-' ==> r.value >= 0
  {
    if |s| >= 1 && (s[0] == '-' || s[0] == '+') then
      match ParseNat(s[1..])
      case None => None
      case Some(n) => Some(if s[0] == '-' then -(n as int) else n as int)
    else
      match ParseNat(s)
      case None => None
      case Some(n) => Some(n)
  }

  /** Reading back the digits of a natural number gives that number. */
  lemma {:induction false} NatRoundTrip(n: nat)
    ensures ParseNat(NatToString(n)) == Some(n)
  {
    var s := NatToString(n);
    if n < 10 {
      assert s[..|s| - 1] == [];
    } else {
      NatRoundTrip(n / 10);
      assert s[..|s| - 1] == NatToString(n / 10);
      assert DigitsValue(s) == (n / 10) * 10 + n % 10;
    }
  }

  /** A non-empty run of digits without a superfluous leading zero, as `str` writes one. */
  predicate IsCanonicalNat(s: string)
  {
    |s| >= 1 && AllDigits(s) && (|s| > 1 ==> s[0] != '0')
  }

  /** A run of digits that starts with a non-zero digit is worth at least 1. */
  lemma {:induction false} LeadingDigitPositive(s: string)
    requires |s| >= 1 && AllDigits(s) && s[0] != '0'
    ensures DigitsValue(s) >= 1
  {
    if |s| > 1 {
      assert s[..|s| - 1][0] == s[0];
      LeadingDigitPositive(s[..|s| - 1]);
    }
  }

  /** A canonical run of digits is the rendering of its own value, so the rendering of a
      natural number is the only canonical text that reads back to it. */
  lemma {:induction false} CanonicalIsRendering(s: string)
    requires IsCanonicalNat(s)
    ensures NatToString(DigitsValue(s)) == s
  {
    var n := DigitsValue(s);
    var last := s[|s| - 1];
    if |s| == 1 {
      assert DigitChar(DigitValue(last)) == last;
    } else {
      var init := s[..|s| - 1];
      assert init[0] == s[0];
      LeadingDigitPositive(init);
      CanonicalIsRendering(init);
      assert n / 10 == DigitsValue(init) && n % 10 == DigitValue(last);
      assert DigitChar(DigitValue(last)) == last;
      assert s == init + [last];
    }
  }

  /** Reading back the rendering of an integer gives that integer. */
  lemma IntRoundTrip(i: int)
    ensures ParseInt(IntToString(i)) == Some(i)
  {
    if i < 0 {
      NatRoundTrip(-i);
      assert IntToString(i)[1..] == NatToString(-i);
    } else {
      NatRoundTrip(i);
    }
  }
}

=== FILE: wrappers.dfy ===
/** Failure-carrying wrappers shared by the whole model. */
module Wrappers {

  /** A value that may be absent; `None` also stands for a pandas NaN cell. */
  datatype Option<+T> = None | Some(value: T)

  /** The outcome of a step that may raise an exception in the scraper. */
  datatype Result<+R, +E> = Success(value: R) | Failure(error: E)
}
